=== FILE: README.md ===
# eMediCard server core, modelled in Dafny

This project models the Convex back end of eMediCard, a health-card application
system. Applicants submit application forms, upload documents and pay fees.
Admins review the forms within the job categories they manage. The model covers:

- **Scoped listing of application forms.** This is `list` in `convex/forms/list.ts`, and `get` and `list` in
  `convex/applications/getById.ts`. An admin check (`isAdmin` and a scope of
  `"all"`, a list of category ids, or missing) is combined with the optional
  status and category filters of the dashboard. The result is joined with the
  user's and the category's display names.
- **Finalizing an application** (`convex/admin/finalizeApplication.ts`). This is a guarded patch
  of one application record. The guards read the review state of its uploaded documents.
- **Payments.** `getByForm` and the admin-gated `updateStatus`, the
  existence-checked `updatePaymentStatusMutation`, and the `unique()` lookup
  `getPaymentByFormIdQuery`.
- **Deleting a link** between a job category and a document requirement.
- **The applicant's read models**: `getDashboardDataQuery`, `getUserApplicationsQuery`,
  `getUserPaymentsQuery` and `getByForm` of `convex/documents.ts`.
- **The closed literal unions** of `convex/schema.ts`.
- **The admin dashboard page's derived state**: the list arguments, the
  category-filter effect, the search box, the status tallies and the screen chosen.
- **The two `timeAgo` helpers** of the activity-log components.

Tables are sequences of records in creation order. `ctx.db.get` is the record
with that id (`Store.Get`). `unique()` fails when two records match (`Seqs.Unique`).
The queries are functions of the table snapshots. The authenticated subject,
the result of `AdminRole` and the clock readings are parameters. The
mutations are module-level methods that take a `Store.Database`, the mutable
`ctx.db`, as a parameter. Each method's
`modifies` clause names the one table it writes. Its postcondition gives the new
table as a function of the old one (`WithStatus`, `Without`, `FinalizedTable`),
and lemmas about those functions state what the source promises.

Errors are `Result.Err` values carrying the thrown message. An error leaves
every table unchanged. The deprecated aliases `updatePaymentStatus`,
`deleteJobCategoryRequirement` and `getUserPayments` are the same objects as the
members they alias, so they have no separate model.

Module layout:

| file | module |
|---|---|
| wrappers.dfy | `Option`, `Result` |
| seqs.dfy | `filter`, `find`, `slice`, `first()`, `unique()` over sequences |
| schema.dfy | convex/schema.ts |
| store.dfy | `ctx.db`: id lookup, the mutable tables |
| admin_access.dfy | the value `AdminRole` returns |
| forms_list.dfy | convex/forms/list.ts |
| applications_by_id.dfy | convex/applications/getById.ts |
| finalize_application.dfy | convex/admin/finalizeApplication.ts |
| payments.dfy | convex/payments.ts |
| update_payment_status.dfy | convex/payments/updatePaymentStatus.ts |
| get_payment_by_form_id.dfy | convex/payments/getPaymentByFormId.ts |
| remove_job_category_requirement.dfy | convex/requirements/removeJobCategoryRequirement.ts |
| documents.dfy | convex/documents.ts |
| current_user.dfy | the user and forms lookups the per-user queries start with |
| user_applications.dfy | convex/applications/getUserApplications.ts |
| user_payments.dfy | convex/payments/getUserPayments.ts |
| dashboard_data.dfy | convex/dashboard/getDashboardData.ts |
| dashboard_page.dfy | src/app/dashboard/page.tsx |
| time_ago.dfy | `timeAgo` of the two activity-log components |

## Model

| member | source | states |
|---|---|---|
| Seqs.First | convex/payments.ts:8-11 | `first()`: none exactly when no element matches; otherwise the match at the lowest index |
| Seqs.Unique | convex/payments/getPaymentByFormId.ts:7-10 | `unique()`: fails exactly when more than one element matches; null exactly when none matches; otherwise the only match |
| Store.Get | convex/applications/getById.ts:10-13 | `ctx.db.get`: a stored record with that id, or null exactly when no record has it |
| Schema.ParseApplicationType | convex/schema.ts:29-32 | a string is accepted exactly when it is the name of New or Renew |
| Schema.ParsePaymentMethod | convex/schema.ts:93-98 | a string is accepted exactly when it names one of the four payment methods |
| Schema.ParsePaymentStatus | convex/schema.ts:103-109 | a string is accepted exactly when it names one of the five payment statuses |
| Schema.ParseRole | convex/schema.ts:120-126 | a string is accepted exactly when it is "applicant", "inspector" or "admin" |
| Schema.ParseOrientationStatus | convex/schema.ts:81-85 | a string is accepted exactly when it names one of the three orientation statuses |
| FormsList.UserName | convex/forms/list.ts:51-55 | the user's full name, or "Unknown User" when the user record is missing |
| FormsList.CategoryName | convex/forms/list.ts:52-56 | the category's name, or "Unknown Category" when the category record is missing |
| FormsList.JoinDetails | convex/forms/list.ts:49-59 | one row per form, in order, each form kept whole, with its two display names |
| FormsList.List | convex/forms/list.ts:14-62 | a non-admin gets `[]`; a missing or empty managed list gives `[]`; every row is a stored form that the admin may see and that matches every given filter |
| FormsList.SelectFormsIsVisibleFilter | convex/forms/list.ts:22-46 | the staged status, category and managed-category filters equal one order-preserving filter by the visibility rule |
| FormsList.SelectedAreVisible | convex/forms/list.ts:25-43 | a form is selected if and only if it is stored and visible |
| FormsList.ListRows | convex/forms/list.ts:45-61 | the list has exactly one row per visible form, in table order; the join adds no rows and drops none |
| FormsList.AllScopeAppliesOnlyUiFilters | convex/forms/list.ts:25-33 | with scope "all", a form is listed exactly when it passes the given status and category filters |
| FormsList.CategoryOutsideScopeIsEmpty | convex/forms/list.ts:28-42 | asking for a category outside the managed list gives `[]`, not an error |
| ApplicationsById.Get | convex/applications/getById.ts:9-21 | null exactly when no form has the id; otherwise that form unchanged, with its user's and category's display names |
| ApplicationsById.List | convex/applications/getById.ts:30-84 | without a supplied scope, a non-admin gets `[]`; a supplied empty list gives `[]`; it fails only when the effective check is an admin's with a missing list |
| ApplicationsById.AgreesWithFormsList | convex/applications/getById.ts:46-83 | wherever it does not fail, `list` returns exactly what the admin list returns for the effective check |
| ApplicationsById.SuppliedScopeIgnoresCaller | convex/applications/getById.ts:38-44 | with `managedCategories` supplied, the result is the same whoever calls |
| ApplicationsById.SuppliedListRestricts | convex/applications/getById.ts:49-62 | with a supplied list, the call succeeds, and every row is a stored form whose category is in the list and which matches the given filters |
| FinalizeApplication.UploadsOf | convex/admin/finalizeApplication.ts:17-20 | exactly the uploads whose application is the given one |
| FinalizeApplication.Patched | convex/admin/finalizeApplication.ts:33-38 | status, remarks and update time are written and every other field is kept; `approvedAt` is set, to its clock reading, exactly when the new status is "Approved" |
| FinalizeApplication.FinalizedTable | convex/admin/finalizeApplication.ts:33-38 | only the record with the given id is patched; the table keeps its length, order and unique ids |
| FinalizeApplication.Finalize | convex/admin/finalizeApplication.ts:12-41 | succeeds exactly when the guards pass and the record exists; a guard's failure returns its message; a missing record gives the store's patch error; success patches only that record; failure changes nothing |
| FinalizeApplication.ApproveAllowedIff | convex/admin/finalizeApplication.ts:23-28 | approval passes the guards exactly when no upload of the application is pending, so rejected uploads do not block it |
| FinalizeApplication.RejectAllowedIff | convex/admin/finalizeApplication.ts:23-30 | rejection passes the guards exactly when no upload is pending and at least one is rejected |
| FinalizeApplication.NoUploads | convex/admin/finalizeApplication.ts:17-30 | with no uploads for the application, approval passes and rejection fails with the "at least one document" message |
| FinalizeApplication.OtherApplicationsIgnored | convex/admin/finalizeApplication.ts:17-20 | an upload of another application never changes the guards' verdict |
| FinalizeApplication.FinalizePreservesApprovedAt | convex/admin/finalizeApplication.ts:33-38 | if every record has `approvedAt` exactly when approved, that still holds after finalizing |
| Payments.GetByForm | convex/payments.ts:5-12 | null exactly when no payment has the form id; otherwise the matching payment at the lowest index |
| Payments.WithStatus | convex/payments.ts:26 | only the status of the payment with that id changes; every other field and payment is kept, in order |
| Payments.WithStatusIdempotent | convex/payments.ts:26 | setting the same status twice equals setting it once |
| Payments.WithStatusSets | convex/payments.ts:26 | afterwards the payment carries the new status, and the id is present exactly when it was before |
| Payments.UpdateStatus | convex/payments.ts:15-28 | a non-admin gets the permission error and nothing changes; an admin's call sets only that payment's status and returns success |
| UpdatePaymentStatus.UpdatePaymentStatusMutation | convex/payments/updatePaymentStatus.ts:4-15 | a missing id gives "Payment not found" and nothing changes; otherwise only that payment's status changes and the given id is returned; the caller is not an input |
| GetPaymentByFormId.GetPaymentByFormIdQuery | convex/payments/getPaymentByFormId.ts:4-11 | fails exactly when two or more payments have the form id; null exactly when none has it; otherwise a stored payment of that form |
| GetPaymentByFormId.AgreesWithGetByForm | convex/payments/getPaymentByFormId.ts:7-10 | where `unique()` succeeds it equals `getByForm`'s `first()`; where it fails, `first()` finds a payment |
| RemoveJobCategoryRequirement.Without | convex/requirements/removeJobCategoryRequirement.ts:17 | exactly the link with that id is removed, one record fewer; the others are kept; an absent id leaves the table as it was |
| RemoveJobCategoryRequirement.DeleteJobCategoryRequirementMutation | convex/requirements/removeJobCategoryRequirement.ts:5-19 | a missing id gives the not-found error and nothing changes; otherwise exactly that link is deleted and success is returned; afterwards the id is absent |
| RemoveJobCategoryRequirement.DeleteTwice | convex/requirements/removeJobCategoryRequirement.ts:12-17 | the second of two deletions with one id fails with the not-found error |
| Documents.DocumentsOfForm | convex/documents.ts:7-10 | exactly the stored documents of the form |
| Documents.DocumentName | convex/documents.ts:14-17 | the requirement's name, or "Unknown Document" when the requirement is missing |
| Documents.GetByForm | convex/documents.ts:4-22 | one row per document of the form, in order, each document kept whole, named after its requirement |
| CurrentUser.Lookup | convex/dashboard/getDashboardData.ts:7-15 | no identity gives no user; more than one user with that Clerk id is a failure; otherwise the user with that Clerk id, or none exactly when no user has it |
| CurrentUser.FormsOfUser | convex/applications/getUserApplications.ts:17-20 | exactly the forms of the user |
| UserApplications.SubmittedAt | convex/applications/getUserApplications.ts:52 | defined exactly when the status is "Submitted"; it is `updatedAt` when present and non-zero, otherwise the creation time |
| UserApplications.CategoryOf | convex/applications/getUserApplications.ts:45-50 | undefined exactly when the category record is missing; otherwise its four fields |
| UserApplications.Row | convex/applications/getUserApplications.ts:34-53 | the row carries the form's id and status, the number of documents of that form, its category summary and its submission time |
| UserApplications.GetUserApplicationsQuery | convex/applications/getUserApplications.ts:3-56 | `[]` without identity or user; fails exactly when the user lookup fails; otherwise one row per owned form, in order |
| UserApplications.RowsDescribeOwnedForms | convex/applications/getUserApplications.ts:23-54 | every row is a stored form's, counts its documents, and has `submittedAt` exactly when its status is "Submitted" |
| UserPayments.Row | convex/payments/getUserPayments.ts:38-59 | the row carries the payment's id and the form's id; the category is undefined exactly when its record is missing |
| UserPayments.Rows | convex/payments/getUserPayments.ts:25-63 | fails exactly when some form has two payments; otherwise no more rows than forms |
| UserPayments.RowsComeFromForms | convex/payments/getUserPayments.ts:25-63 | every row is the row of some form's unique payment |
| UserPayments.RowsOfCons | convex/payments/getUserPayments.ts:56-59 | adding a paid form's row in front of matched rows keeps rows and forms matched one to one |
| UserPayments.RowsFollowFormOrder | convex/payments/getUserPayments.ts:25-63 | the rows are, one each and in form order, the rows of exactly the forms that have one payment: none is skipped and no other form adds a row |
| UserPayments.GetUserPaymentsQuery | convex/payments/getUserPayments.ts:3-65 | `[]` without identity, user or forms; fails when the user lookup fails; for a found user, fails exactly when some owned form has two payments; otherwise no more rows than owned forms, each the row of an owned form's payment |
| UserPayments.RowsArePaymentsOfOwnedForms | convex/payments/getUserPayments.ts:26-59 | every row copies the fields of a stored payment whose form belongs to the caller |
| UserPayments.EveryPaidFormHasRow | convex/payments/getUserPayments.ts:26-63 | every form of the caller that has exactly one payment has that payment's row in the result |
| DashboardData.PaymentsOfForms | convex/dashboard/getDashboardData.ts:38-46 | fails exactly when some form has two payments; otherwise no more payments than forms, each a stored payment of a given form |
| DashboardData.PaymentsOfFormsComplete | convex/dashboard/getDashboardData.ts:38-46 | a form has a fetched payment exactly when the table holds a payment for it |
| DashboardData.FetchedInOrderCons | convex/dashboard/getDashboardData.ts:38-46 | putting a paid form's payment in front of matched payments keeps payments and forms matched one to one |
| DashboardData.PaymentsOfFormsInOrder | convex/dashboard/getDashboardData.ts:38-46 | the fetched payments are, one each and in form order, the unique payments of exactly the forms that have one: none is skipped, repeated or reordered |
| DashboardData.CardsOfForms | convex/dashboard/getDashboardData.ts:31-35 | exactly the stored cards of the user's forms |
| DashboardData.Unexpired | convex/dashboard/getDashboardData.ts:89-91 | exactly the cards with `expiresAt` after the clock reading |
| DashboardData.NotificationsOf | convex/dashboard/getDashboardData.ts:23-25 | exactly the stored notifications of the user |
| DashboardData.RecentNotifications | convex/dashboard/getDashboardData.ts:23-27 | the user's ten newest notifications (all of them when there are fewer), newest first |
| DashboardData.ApplicationRow | convex/dashboard/getDashboardData.ts:49-73 | the row carries the form's id and status and its document count; `hasPayment` holds exactly when a fetched payment has that form |
| DashboardData.ActiveCountsForms | convex/dashboard/getDashboardData.ts:77-79 | the active rows are exactly as many as the forms with status "Submitted" or "Under Review" |
| DashboardData.PendingOnly | convex/dashboard/getDashboardData.ts:81-83 | exactly the pending payments |
| DashboardData.Unread | convex/dashboard/getDashboardData.ts:93 | exactly the unread notifications |
| DashboardData.Active | convex/dashboard/getDashboardData.ts:77-79 | exactly the rows with status "Submitted" or "Under Review" |
| DashboardData.PaymentView | convex/dashboard/getDashboardData.ts:130-145 | carries the payment's id, form id and status; `formType` is present exactly when the form is one of the user's, and is then that form's application type |
| DashboardData.GetDashboardDataQuery | convex/dashboard/getDashboardData.ts:4-159 | null without identity or user; fails when the user lookup fails; for a found user, fails exactly when some owned form has two payments, and otherwise always produces a dashboard |
| DashboardData.ApplicationsMatchForms | convex/dashboard/getDashboardData.ts:49-74 | one application per owned form, in order, with its id, status and document count; `hasPayment` holds exactly when a stored payment has that form |
| DashboardData.PendingMatchesForms | convex/dashboard/getDashboardData.ts:81-87 | the pending fetched payments are as many as the owned forms whose one payment is pending, and their net amounts sum to those forms' net amounts |
| DashboardData.StatsCount | convex/dashboard/getDashboardData.ts:76-93 | `activeApplications` counts the owned forms with an active status; `pendingPayments` counts the owned forms whose payment is pending; `pendingAmount` is those payments' net amounts summed form by form; `unreadNotifications` counts the unread among the ten newest, which is all the user's unread ones when there are at most ten |
| DashboardData.DashboardBounds | convex/dashboard/getDashboardData.ts:76-156 | counts are bounded by the forms or by 10; at most 5 notifications and 3 payments are shown; every shown card is unexpired and of an owned form; with one clock reading, their number is `validHealthCards` |
| DashboardData.ShownNotifications | convex/dashboard/getDashboardData.ts:119-127 | the dashboard shows the views of the user's five newest notifications (all when fewer), newest first |
| DashboardData.ShownPayments | convex/dashboard/getDashboardData.ts:38-145 | for a produced dashboard the payment fetch succeeded, and the dashboard shows the views of the last three fetched payments (all when fewer), in fetch order |
| DashboardData.AssembledPayments | convex/dashboard/getDashboardData.ts:130-145 | the assembled dashboard shows the views of the last three fetched payments (all when fewer), in fetch order |
| DashboardData.ShownCards | convex/dashboard/getDashboardData.ts:148-156 | every card of an owned form that expires after the clock reading is shown |
| DashboardPage.Filters.constructor | src/app/dashboard/page.tsx:19-21 | search, status filter and category filter all start empty |
| DashboardPage.Filters.ApplyPrivileges | src/app/dashboard/page.tsx:37-47 | scope "all" clears the category filter; exactly one managed category selects it; anything else leaves it unchanged |
| DashboardPage.ListArguments | src/app/dashboard/page.tsx:28-34 | an empty dropdown value is sent as undefined; any other value is sent as it is |
| DashboardPage.Lower | src/app/dashboard/page.tsx:63 | same length, each character lowered |
| DashboardPage.Search | src/app/dashboard/page.tsx:62-64 | exactly the rows whose lowered user name contains the lowered query; no data yet counts as no rows |
| DashboardPage.EmptySearchKeepsNamedRows | src/app/dashboard/page.tsx:62-64 | an empty query keeps exactly the rows that have a user name, in order |
| DashboardPage.Tally | src/app/dashboard/page.tsx:65-71 | a tally never exceeds the number of rows |
| DashboardPage.TallyCons | src/app/dashboard/page.tsx:65-71 | a tally counts the head row exactly when its status is that status, plus the tally of the rest: it is the number of rows with exactly that status |
| DashboardPage.ComputeTallies | src/app/dashboard/page.tsx:65-71 | each of the six tallies is at most the number of rows |
| DashboardPage.TalliesPartition | src/app/dashboard/page.tsx:65-71 | no row is counted twice: the six tallies sum to at most the number of rows |
| DashboardPage.ScreenFor | src/app/dashboard/page.tsx:75-94 | the dashboard shows exactly when everything is loaded and an admin is signed in; access denied shows exactly for a signed-in non-admin |
| Seqs.CountReverse | convex/dashboard/getDashboardData.ts:93 | reversing a sequence keeps the number of elements that satisfy a test |
| TimeAgo.ElapsedSeconds | src/components/DashboardActivityLog.tsx:33 | the elapsed milliseconds divided by 1000 and rounded down |
| TimeAgo.IntervalIsIntegerDivision | src/components/DashboardActivityLog.tsx:34-43 | the real `> 1` test is the strict integer comparison with the unit, and the floor of the real quotient is integer division |
| TimeAgo.DashboardTimeAgoSpec | src/components/DashboardActivityLog.tsx:32-45 | the unit is the largest of minute, hour, day, month and year that the time strictly exceeds, or seconds; the count is the time divided by that unit |
| TimeAgo.ApplicantTimeAgoSpec | src/components/ApplicantActivityLog.tsx:20-27 | the same rule with minutes and hours only |
| TimeAgo.CountsArePositive | src/components/DashboardActivityLog.tsx:34-44 | outside the seconds branch the count is at least 1; up to 60 seconds, negative times included, the count is the seconds themselves |
| TimeAgo.StrictThresholds | src/components/DashboardActivityLog.tsx:35-41 | exactly one day reads "24 hours"; exactly one year reads "12 months"; in the applicant log, one hour reads "60 minutes" and two days read "48 hours" |
| TimeAgo.DashboardUnitMonotone | src/components/DashboardActivityLog.tsx:34-44 | a longer elapsed time never shows in a smaller unit |
| TimeAgo.LogsAgreeWithinADay | src/components/ApplicantActivityLog.tsx:20-27 | up to one day the two helpers show the same count and unit |

## Left out

- `AdminRole` (convex/users/roles) is not part of this model. Its result is an input value (`AdminAccess.AdminCheck`), and how it derives that value from the caller is not stated.
- The authenticated identity (`ctx.auth.getUserIdentity`) is an input: the subject string, or none.
- `Date.now()` and `new Date()` are parameters. `finalize` reads the clock twice, so it takes two readings. `getDashboardDataQuery` calls `Date.now()` inside two `filter` callbacks, once per card, in the health-card count and in the shown cards. The Convex runtime keeps the clock fixed for the whole of one query, so every one of those calls sees the same value. The model still takes one reading per callback (`statsNow`, `cardsNow`); DashboardBounds ties the card count to the shown cards when the two are equal, as the runtime makes them.
- Timestamps (`_creationTime`, `updatedAt`, `expiresAt` and the clock readings) are unbounded integers of milliseconds. JavaScript numbers are float64, which represent such integers exactly at realistic magnitudes.
- Money amounts (`amount`, `serviceFee`, `netAmount`) are exact reals. Float64 rounding of these values and of their sums is not modelled.
- The Convex engine is not modelled: index definitions, `Promise.all`, asynchrony, transactions and concurrent clients. Handlers run sequentially over table snapshots in creation order. The descending index scan of notifications is a reversal of that order.
- Argument validators are not modelled as code. The argument types carry them instead: `Decision`, `ValidationStatus`, `SettableStatus`, `ScopeArgument` and ids as strings. A call the validator rejects cannot be written.
- The message the store throws when `patch` names a missing id is paraphrased in `Store.PatchMissing`.
- The message Convex throws when `unique()` finds more than one record is paraphrased in `Seqs.UniqueFailed`.
- FinalizeApplication.Finalize: `AdminRole`'s result is discarded by the source, so the model has no admin input. Any exception `AdminRole` itself might throw is not modelled.
- ApplicationsById.List: the role check can report an admin with a missing list. Reading `.length` of that missing list throws a `TypeError`. The model returns that as `Err`. `convex/forms/list.ts` returns `[]` in the same situation.
- DashboardData.GetDashboardDataQuery: `pendingAmount` is an exact sum of reals, not a float64 sum. Its rounding is not modelled.
- DashboardData.GetDashboardDataQuery: its own contract states when a dashboard is produced. What the dashboard holds is stated by ApplicationsMatchForms, StatsCount, ShownNotifications, ShownPayments, ShownCards and DashboardBounds.
- DashboardData.StatsCount: `unreadNotifications` is tied to all of the user's notifications only when there are at most ten, because the source counts within the ten it fetched.
- DashboardPage.Lower: `toLowerCase` is modelled as ASCII lowering. Unicode case mapping is not modelled.
- The dashboard page tallies `applicationStatus`, while the list queries return rows with `status`. `DashboardPage.Row` keeps the field the page reads, and the two are not reconciled. The `applications` and `documentUploads` tables that `finalize` patches are not declared in convex/schema.ts. `Store.Application` carries the fields `finalize` uses, plus every other field as a map from field name to value. `Store.DocumentUpload` carries only its id, its application and `reviewStatus`, the fields `finalize` reads.
- The page's rendering, JSX, the colour table, dropdown state and sign-in redirect are not modelled. The same goes for the open and close state and outside-click handling of both activity logs, and the sample activity entries.
- TimeAgo.Interval: the quotient is an exact real, where JavaScript divides in float64. Rounding could matter only at magnitudes far beyond realistic timestamps.
- `timeAgo`'s text ("N hours ago") is represented by its count and unit (`TimeAgo.Ago`). Number-to-string rendering is not modelled.
- convex/orientations.ts is not part of this model: its day window depends on the host's time zone.
- Per-requirement checklists and "Missing" documents are not computed by any code modelled here. `finalize` reads only the uploads' `reviewStatus`.
- Nothing in this model checks whether the mutations' callers are entitled to call them, beyond what each handler checks itself.

=== FILE: admin_access.dfy ===
/** The value `AdminRole(ctx)` returns. How `AdminRole` computes it from the
    caller's identity is not part of this model: callers pass its result in. */
module AdminAccess {
  import opened Schema

  /** `managedCategories` as the handlers test it: the string "all", a list of
      category ids, or missing. */
  datatype Scope = All | Ids(ids: seq<CategoryId>) | Absent

  datatype AdminCheck = AdminCheck(isAdmin: bool, managedCategories: Scope)

  /** Whether a scope lets an admin see forms of category `c`: "all" covers
      every category, a list covers its members, a missing scope covers none. */
  predicate InScope(scope: Scope, c: CategoryId) {
    match scope
    case All => true
    case Ids(ids) => c in ids
    case Absent => false
  }
}

=== FILE: applications_by_id.dfy ===
/** `get` and `list` of convex/applications/getById.ts. `list` is the admin
    list again, except that a caller-supplied `managedCategories` replaces the
    role check entirely. */
module ApplicationsById {
  import opened Wrappers
  import opened Schema
  import opened Store
  import opened AdminAccess
  import FormsList

  /** The `managedCategories` argument: `v.union(v.literal("all"), v.array(...))`. */
  datatype ScopeArgument = AllCategories | Categories(ids: seq<CategoryId>)

  /** The message of the `TypeError` raised by reading `.length` of a missing list. */
  const MissingListError := "TypeError: Cannot read properties of undefined (reading 'length')"

  function ScopeOf(arg: ScopeArgument): Scope {
    match arg
    case AllCategories => All
    case Categories(ids) => Ids(ids)
  }

  /** `get`: null for a missing id, otherwise the form unchanged plus its display names. */
  function Get(forms: seq<Form>, users: seq<User>, categories: seq<JobCategory>, id: FormId): (r: Option<FormsList.FormWithDetails>)
    ensures r.None? <==> forall f :: f in forms ==> f.id != id
    ensures r.Some? ==> r.value.form in forms && r.value.form.id == id
    ensures r.Some? ==> r.value.userName == FormsList.UserName(users, r.value.form.userId)
    ensures r.Some? ==> r.value.jobCategoryName == FormsList.CategoryName(categories, r.value.form.jobCategory)
  {
    match Store.Get(forms, FormKey, id)
    case None => None
    case Some(form) =>
      Some(FormsList.FormWithDetails(form, FormsList.UserName(users, form.userId),
                                     FormsList.CategoryName(categories, form.jobCategory)))
  }

  /** The check `list` works with (lines 31-44): the supplied scope, trusted as
      an admin's, or else the role check's result. */
  function EffectiveCheck(managedCategories: Option<ScopeArgument>, roleCheck: AdminCheck): AdminCheck {
    match managedCategories
    case Some(arg) => AdminCheck(true, ScopeOf(arg))
    case None => roleCheck
  }

  /** Lines 30-68: the forms `list` collects, or the error it raises. */
  function SelectForms(managedCategories: Option<ScopeArgument>, roleCheck: AdminCheck,
                       status: Option<string>, jobCategory: Option<CategoryId>, forms: seq<Form>): Result<seq<Form>>
  {
    if managedCategories.None? && !roleCheck.isAdmin then Ok([])
    else
      var check := EffectiveCheck(managedCategories, roleCheck);
      var filtered := FormsList.ByCategory(FormsList.ByStatus(forms, status), jobCategory);
      match check.managedCategories
      case All => Ok(filtered)
      case Absent => Err(MissingListError)
      case Ids(ids) => if |ids| > 0 then Ok(FormsList.ByManaged(filtered, ids)) else Ok([])
  }

  /** `list`. */
  function List(managedCategories: Option<ScopeArgument>, roleCheck: AdminCheck,
                status: Option<string>, jobCategory: Option<CategoryId>,
                forms: seq<Form>, users: seq<User>, categories: seq<JobCategory>): (r: Result<seq<FormsList.FormWithDetails>>)
    ensures managedCategories.None? && !roleCheck.isAdmin ==> r == Ok([])
    ensures managedCategories == Some(Categories([])) ==> r == Ok([])
    ensures r.Err? <==> EffectiveCheck(managedCategories, roleCheck).isAdmin &&
                        EffectiveCheck(managedCategories, roleCheck).managedCategories == Absent
  {
    match SelectForms(managedCategories, roleCheck, status, jobCategory, forms)
    case Err(msg) => Err(msg)
    case Ok(selected) => Ok(FormsList.JoinDetails(selected, users, categories))
  }

  /** Wherever `list` does not fail, it returns what the admin list returns
      for the effective check: same visibility, same rows, same order. */
  lemma AgreesWithFormsList(managedCategories: Option<ScopeArgument>, roleCheck: AdminCheck,
                            status: Option<string>, jobCategory: Option<CategoryId>,
                            forms: seq<Form>, users: seq<User>, categories: seq<JobCategory>)
    requires EffectiveCheck(managedCategories, roleCheck).managedCategories != Absent || !roleCheck.isAdmin
    ensures List(managedCategories, roleCheck, status, jobCategory, forms, users, categories) ==
            Ok(FormsList.List(EffectiveCheck(managedCategories, roleCheck), status, jobCategory, forms, users, categories))
  {
  }

  /** A supplied `managedCategories` decides the result alone: who calls does not matter. */
  lemma SuppliedScopeIgnoresCaller(arg: ScopeArgument, caller1: AdminCheck, caller2: AdminCheck,
                                   status: Option<string>, jobCategory: Option<CategoryId>,
                                   forms: seq<Form>, users: seq<User>, categories: seq<JobCategory>)
    ensures List(Some(arg), caller1, status, jobCategory, forms, users, categories) ==
            List(Some(arg), caller2, status, jobCategory, forms, users, categories)
  {
  }

  /** With a non-empty supplied list, every row's category is in that list and
      every row matches the given filters. */
  lemma SuppliedListRestricts(ids: seq<CategoryId>, caller: AdminCheck,
                              status: Option<string>, jobCategory: Option<CategoryId>,
                              forms: seq<Form>, users: seq<User>, categories: seq<JobCategory>)
    ensures var r := List(Some(Categories(ids)), caller, status, jobCategory, forms, users, categories);
            r.Ok? && forall row :: row in r.value ==>
              row.form in forms && row.form.jobCategory in ids &&
              (!FormsList.Given(status) || row.form.status == status.value) &&
              (!FormsList.Given(jobCategory) || row.form.jobCategory == jobCategory.value)
  {
    AgreesWithFormsList(Some(Categories(ids)), caller, status, jobCategory, forms, users, categories);
  }
}

=== FILE: current_user.dfy ===
/** The lookups every per-user query starts with: the caller's `users` record
    through the `by_clerk_id` index, and that user's forms through `by_user`. */
module CurrentUser {
  import opened Wrappers
  import opened Schema
  import opened Seqs

  /** `identity` is the subject of the authenticated identity, if any. No
      identity gives no user; more than one user with that Clerk id makes
      `unique()` fail. */
  function Lookup(users: seq<User>, identity: Option<string>): (r: Result<Option<User>>)
    ensures identity.None? ==> r == Ok(None)
    ensures r.Err? <==> identity.Some? && Count(users, (u: User) => u.clerkId == identity.value) > 1
    ensures r.Ok? && r.value.Some? ==> identity.Some? && r.value.value in users && r.value.value.clerkId == identity.value
    ensures identity.Some? ==> (r == Ok(None) <==> forall u :: u in users ==> u.clerkId != identity.value)
  {
    match identity
    case None => Ok(None)
    case Some(subject) => Unique(users, (u: User) => u.clerkId == subject)
  }

  /** The `forms` `by_user` index query: the user's forms, in table order. */
  function FormsOfUser(forms: seq<Form>, userId: UserId): (r: seq<Form>)
    ensures forall f :: f in r <==> f in forms && f.userId == userId
    ensures |r| <= |forms|
  {
    Filter(forms, (f: Form) => f.userId == userId)
  }
}

=== FILE: dashboard_data.dfy ===
/** `getDashboardDataQuery`: the applicant's dashboard, aggregated on the
    server from the user's forms, payments, health cards and notifications.
    `statsNow` and `cardsNow` are the two `Date.now()` readings (lines 90 and 149). */
module DashboardData {
  import opened Wrappers
  import opened Schema
  import opened Seqs
  import opened Store
  import opened CurrentUser
  import opened Documents
  import UserApplications
  import GetPaymentByFormId

  datatype UserProfile = UserProfile(
    id: UserId, username: string, fullname: string, email: string, image: string, role: Option<Role>)

  datatype ApplicationSummary = ApplicationSummary(
    id: FormId, creationTime: int, status: string, applicationType: ApplicationType,
    position: string, organization: string, jobCategory: Option<UserApplications.CategorySummary>,
    documentCount: nat, hasPayment: bool)

  datatype Stats = Stats(
    activeApplications: nat, pendingPayments: nat, pendingAmount: real,
    validHealthCards: nat, unreadNotifications: nat)

  datatype NotificationSummary = NotificationSummary(
    id: NotificationId, creationTime: int, title: Option<string>, message: string,
    kind: string, read: bool, actionUrl: Option<string>)

  datatype RecentPayment = RecentPayment(
    id: PaymentId, creationTime: int, amount: real, netAmount: real, paymentMethod: PaymentMethod,
    status: PaymentStatus, updatedAt: Option<int>, formId: FormId, formType: Option<ApplicationType>)

  datatype CardSummary = CardSummary(
    id: HealthCardId, formId: FormId, issuedAt: int, expiresAt: int, verificationToken: string)

  datatype Dashboard = Dashboard(
    user: UserProfile, applications: seq<ApplicationSummary>, stats: Stats,
    notifications: seq<NotificationSummary>, payments: seq<RecentPayment>, healthCards: seq<CardSummary>)

  /** Whether some form of `forms` has id `formId` (`forms.some(form => form._id === formId)`). */
  predicate OwnsForm(forms: seq<Form>, formId: FormId) {
    exists f :: f in forms && f.id == formId
  }

  /** Lines 38-46: each form's unique payment, forms without one skipped. */
  function PaymentsOfForms(forms: seq<Form>, payments: seq<Payment>): (r: Result<seq<Payment>>)
    ensures r.Err? <==> exists f :: f in forms && GetPaymentByFormId.GetPaymentByFormIdQuery(payments, f.id).Err?
    ensures r.Ok? ==> |r.value| <= |forms|
    ensures r.Ok? ==> forall p :: p in r.value ==> p in payments && OwnsForm(forms, p.formId)
    decreases |forms|
  {
    if forms == [] then Ok([])
    else
      var form := forms[0];
      assert forall f :: f in forms[1..] ==> f in forms;
      assert forall f :: f in forms ==> f == form || f in forms[1..];
      match GetPaymentByFormId.GetPaymentByFormIdQuery(payments, form.id)
      case Err(msg) => Err(msg)
      case Ok(None) => PaymentsOfForms(forms[1..], payments)
      case Ok(Some(payment)) =>
        match PaymentsOfForms(forms[1..], payments)
        case Err(msg) => Err(msg)
        case Ok(rest) => Ok([payment] + rest)
  }

  /** A form has a fetched payment exactly when the table holds a payment for it. */
  lemma {:induction false} PaymentsOfFormsComplete(forms: seq<Form>, payments: seq<Payment>, f: Form)
    requires PaymentsOfForms(forms, payments).Ok? && f in forms
    ensures (exists p :: p in PaymentsOfForms(forms, payments).value && p.formId == f.id) <==>
            (exists p :: p in payments && p.formId == f.id)
    decreases |forms|
  {
    var r := PaymentsOfForms(forms, payments).value;
    var form := forms[0];
    var q := GetPaymentByFormId.GetPaymentByFormIdQuery(payments, form.id);
    assert q.Ok?;
    if f == form {
      if q.value.Some? {
        assert q.value.value in r;
      } else {
        assert forall p :: p in r ==> p.formId != f.id by {
          forall p | p in r ensures p.formId != f.id {
            assert p in payments;
          }
        }
      }
    } else {
      assert f in forms[1..];
      var rest := PaymentsOfForms(forms[1..], payments).value;
      PaymentsOfFormsComplete(forms[1..], payments, f);
      if q.value.Some? {
        assert r == [q.value.value] + rest;
      } else {
        assert r == rest;
      }
    }
  }

  /** Lines 31-35: the health cards of the user's forms. */
  function CardsOfForms(cards: seq<HealthCard>, forms: seq<Form>): (r: seq<HealthCard>)
    ensures forall c :: c in r <==> c in cards && OwnsForm(forms, c.formId)
  {
    Filter(cards, (c: HealthCard) => OwnsForm(forms, c.formId))
  }

  /** Cards that have not expired at `now` (`card.expiresAt > Date.now()`). */
  function Unexpired(cards: seq<HealthCard>, now: int): (r: seq<HealthCard>)
    ensures forall c :: c in r <==> c in cards && c.expiresAt > now
    ensures |r| <= |cards|
  {
    Filter(cards, (c: HealthCard) => c.expiresAt > now)
  }

  /** The notifications `by_user` index query: the user's notifications, oldest first. */
  function NotificationsOf(notifications: seq<Notification>, userId: UserId): (r: seq<Notification>)
    ensures forall n :: n in r <==> n in notifications && n.userId == userId
  {
    Filter(notifications, (n: Notification) => n.userId == userId)
  }

  /** That query in descending order, `take(10)`: the ten newest, newest first. */
  function RecentNotifications(notifications: seq<Notification>, userId: UserId): (r: seq<Notification>)
    ensures var mine := NotificationsOf(notifications, userId);
            |r| == (if |mine| <= 10 then |mine| else 10) &&
            forall i :: 0 <= i < |r| ==> r[i] == mine[|mine| - 1 - i]
    ensures forall n :: n in r ==> n in notifications && n.userId == userId
  {
    Take(Reverse(NotificationsOf(notifications, userId)), 10)
  }

  /** Lines 49-73: one form's row. */
  function ApplicationRow(form: Form, categories: seq<JobCategory>, documents: seq<FormDocument>,
                          userPayments: seq<Payment>): (r: ApplicationSummary)
    ensures r.id == form.id && r.status == form.status
    ensures r.documentCount == |DocumentsOfForm(documents, form.id)|
    ensures r.hasPayment <==> exists p :: p in userPayments && p.formId == form.id
  {
    ApplicationSummary(
      form.id, form.creationTime, form.status, form.applicationType, form.position, form.organization,
      UserApplications.CategoryOf(categories, form.jobCategory),
      |DocumentsOfForm(documents, form.id)|,
      exists p :: p in userPayments && p.formId == form.id)
  }

  /** One row per form, in order. */
  function ApplicationRows(forms: seq<Form>, categories: seq<JobCategory>, documents: seq<FormDocument>,
                           userPayments: seq<Payment>): seq<ApplicationSummary>
  {
    seq(|forms|, i requires 0 <= i < |forms| => ApplicationRow(forms[i], categories, documents, userPayments))
  }

  /** A form counts as active while "Submitted" or "Under Review". */
  predicate IsActive(a: ApplicationSummary) {
    a.status == "Submitted" || a.status == "Under Review"
  }

  /** The same test on the form itself. */
  predicate IsActiveForm(f: Form) {
    f.status == "Submitted" || f.status == "Under Review"
  }

  /** The active rows are exactly as many as the active forms. */
  lemma {:induction false} ActiveCountsForms(forms: seq<Form>, categories: seq<JobCategory>,
                                             documents: seq<FormDocument>, userPayments: seq<Payment>)
    ensures |Active(ApplicationRows(forms, categories, documents, userPayments))| == Count(forms, IsActiveForm)
    decreases |forms|
  {
    if forms != [] {
      var rows := ApplicationRows(forms, categories, documents, userPayments);
      assert rows[1..] == ApplicationRows(forms[1..], categories, documents, userPayments);
      ActiveCountsForms(forms[1..], categories, documents, userPayments);
      assert IsActive(rows[0]) <==> IsActiveForm(forms[0]);
    }
  }

  /** Sum of `netAmount` over `payments` (`reduce` with `netAmount || 0`), as an exact real sum. */
  function NetTotal(payments: seq<Payment>): real {
    if payments == [] then 0.0 else payments[0].netAmount + NetTotal(payments[1..])
  }

  function PendingOnly(payments: seq<Payment>): (r: seq<Payment>)
    ensures forall p :: p in r <==> p in payments && p.status == Pending
    ensures |r| <= |payments|
  {
    Filter(payments, (p: Payment) => p.status == Pending)
  }

  function Unread(notifications: seq<Notification>): (r: seq<Notification>)
    ensures forall n :: n in r <==> n in notifications && !n.read
    ensures |r| <= |notifications|
  {
    Filter(notifications, (n: Notification) => !n.read)
  }

  function Active(applications: seq<ApplicationSummary>): (r: seq<ApplicationSummary>)
    ensures forall a :: a in r <==> a in applications && IsActive(a)
    ensures |r| <= |applications|
  {
    Filter(applications, IsActive)
  }

  function NotificationView(n: Notification): NotificationSummary {
    NotificationSummary(n.id, n.creationTime, n.title, n.message, n.kind, n.read, n.actionUrl)
  }

  /** A recent payment, with the application type of its form when that form is found. */
  function PaymentView(p: Payment, forms: seq<Form>): (r: RecentPayment)
    ensures r.id == p.id && r.formId == p.formId && r.status == p.status
    ensures r.formType.Some? <==> OwnsForm(forms, p.formId)
    ensures r.formType.Some? ==> exists f :: f in forms && f.id == p.formId && r.formType.value == f.applicationType
  {
    var related := First(forms, (f: Form) => f.id == p.formId);
    RecentPayment(p.id, p.creationTime, p.amount, p.netAmount, p.paymentMethod, p.status, p.updatedAt, p.formId,
                  match related case Some(f) => Some(f.applicationType) case None => None)
  }

  function CardView(c: HealthCard): CardSummary {
    CardSummary(c.id, c.formId, c.issuedAt, c.expiresAt, c.verificationToken)
  }

  /** The dashboard of `user`, once the fetched payments are known (lines 48-157). */
  function Assemble(user: User, forms: seq<Form>, recent: seq<Notification>, cards: seq<HealthCard>,
                    userPayments: seq<Payment>, categories: seq<JobCategory>, documents: seq<FormDocument>,
                    statsNow: int, cardsNow: int): Dashboard
  {
    var applications := ApplicationRows(forms, categories, documents, userPayments);
    var pending := PendingOnly(userPayments);
    var stats := Stats(
      |Active(applications)|, |pending|, NetTotal(pending),
      |Unexpired(cards, statsNow)|, |Unread(recent)|);
    var shownNotifications := Take(recent, 5);
    var shownPayments := TakeLast(userPayments, 3);
    var shownCards := Unexpired(cards, cardsNow);
    Dashboard(
      UserProfile(user.id, user.username, user.fullname, user.email, user.image, user.role),
      applications, stats,
      seq(|shownNotifications|, i requires 0 <= i < |shownNotifications| => NotificationView(shownNotifications[i])),
      seq(|shownPayments|, i requires 0 <= i < |shownPayments| => PaymentView(shownPayments[i], forms)),
      seq(|shownCards|, i requires 0 <= i < |shownCards| => CardView(shownCards[i])))
  }

  /** The query: null without identity or user; a failure when a `unique()`
      lookup finds two records; otherwise the assembled dashboard. */
  function GetDashboardDataQuery(identity: Option<string>, users: seq<User>, forms: seq<Form>,
                                 notifications: seq<Notification>, cards: seq<HealthCard>,
                                 payments: seq<Payment>, categories: seq<JobCategory>,
                                 documents: seq<FormDocument>, statsNow: int, cardsNow: int)
    : (r: Result<Option<Dashboard>>)
    ensures Lookup(users, identity) == Ok(None) ==> r == Ok(None)
    ensures Lookup(users, identity).Err? ==> r.Err?
    ensures Lookup(users, identity).Ok? && Lookup(users, identity).value.Some? ==>
              var owned := FormsOfUser(forms, Lookup(users, identity).value.value.id);
              (r.Err? <==> exists f :: f in owned && GetPaymentByFormId.GetPaymentByFormIdQuery(payments, f.id).Err?) &&
              (r.Ok? ==> r.value.Some?)
  {
    match Lookup(users, identity)
    case Err(msg) => Err(msg)
    case Ok(None) => Ok(None)
    case Ok(Some(user)) =>
      var owned := FormsOfUser(forms, user.id);
      match PaymentsOfForms(owned, payments)
      case Err(msg) => Err(msg)
      case Ok(userPayments) =>
        Ok(Some(Assemble(user, owned, RecentNotifications(notifications, user.id),
                         CardsOfForms(cards, owned), userPayments, categories, documents, statsNow, cardsNow)))
  }

  /** The applications: one row per form of the user, in order, with that
      form's document count and whether a payment of that form is stored. */
  lemma ApplicationsMatchForms(identity: Option<string>, users: seq<User>, forms: seq<Form>,
                               notifications: seq<Notification>, cards: seq<HealthCard>,
                               payments: seq<Payment>, categories: seq<JobCategory>,
                               documents: seq<FormDocument>, statsNow: int, cardsNow: int)
    requires var r := GetDashboardDataQuery(identity, users, forms, notifications, cards, payments, categories, documents, statsNow, cardsNow);
             r.Ok? && r.value.Some?
    ensures Lookup(users, identity).Ok? && Lookup(users, identity).value.Some?
    ensures var d := GetDashboardDataQuery(identity, users, forms, notifications, cards, payments, categories, documents, statsNow, cardsNow).value.value;
            var owned := FormsOfUser(forms, Lookup(users, identity).value.value.id);
            |d.applications| == |owned| &&
            forall i :: 0 <= i < |owned| ==>
              d.applications[i].id == owned[i].id &&
              d.applications[i].status == owned[i].status &&
              d.applications[i].documentCount == |DocumentsOfForm(documents, owned[i].id)| &&
              (d.applications[i].hasPayment <==> exists p :: p in payments && p.formId == owned[i].id)
  {
    var user := Lookup(users, identity).value.value;
    var owned := FormsOfUser(forms, user.id);
    var userPayments := PaymentsOfForms(owned, payments).value;
    var d := Assemble(user, owned, RecentNotifications(notifications, user.id),
                      CardsOfForms(cards, owned), userPayments, categories, documents, statsNow, cardsNow);
    assert GetDashboardDataQuery(identity, users, forms, notifications, cards, payments, categories, documents, statsNow, cardsNow)
           == Ok(Some(d));
    forall i | 0 <= i < |owned|
      ensures d.applications[i].id == owned[i].id
      ensures d.applications[i].status == owned[i].status
      ensures d.applications[i].documentCount == |DocumentsOfForm(documents, owned[i].id)|
      ensures d.applications[i].hasPayment <==> exists p :: p in payments && p.formId == owned[i].id
    {
      assert d.applications[i] == ApplicationRow(owned[i], categories, documents, userPayments);
      PaymentsOfFormsComplete(owned, payments, owned[i]);
    }
  }

  /** The bounds of the summary: counts never exceed what they count, at most
      5 notifications and 3 payments are shown, and the shown health cards are
      unexpired cards of the user's forms. */
  lemma DashboardBounds(identity: Option<string>, users: seq<User>, forms: seq<Form>,
                        notifications: seq<Notification>, cards: seq<HealthCard>,
                        payments: seq<Payment>, categories: seq<JobCategory>,
                        documents: seq<FormDocument>, statsNow: int, cardsNow: int)
    requires var r := GetDashboardDataQuery(identity, users, forms, notifications, cards, payments, categories, documents, statsNow, cardsNow);
             r.Ok? && r.value.Some?
    ensures Lookup(users, identity).Ok? && Lookup(users, identity).value.Some?
    ensures var d := GetDashboardDataQuery(identity, users, forms, notifications, cards, payments, categories, documents, statsNow, cardsNow).value.value;
            var owned := FormsOfUser(forms, Lookup(users, identity).value.value.id);
            d.stats.activeApplications <= |owned| &&
            d.stats.pendingPayments <= |owned| &&
            d.stats.unreadNotifications <= 10 &&
            |d.notifications| <= 5 && |d.payments| <= 3 &&
            (forall c :: c in d.healthCards ==> c.expiresAt > cardsNow && OwnsForm(owned, c.formId)) &&
            (statsNow == cardsNow ==> |d.healthCards| == d.stats.validHealthCards)
  {
    var user := Lookup(users, identity).value.value;
    var owned := FormsOfUser(forms, user.id);
    var userPayments := PaymentsOfForms(owned, payments).value;
    var d := GetDashboardDataQuery(identity, users, forms, notifications, cards, payments, categories, documents, statsNow, cardsNow).value.value;
    var shown := Unexpired(CardsOfForms(cards, owned), cardsNow);
    forall c | c in d.healthCards
      ensures c.expiresAt > cardsNow && OwnsForm(owned, c.formId)
    {
      var i :| 0 <= i < |d.healthCards| && d.healthCards[i] == c;
      assert shown[i] in shown;
    }
  }
  /** Whether the unique stored payment of `f` is pending. */
  predicate HasPendingPayment(payments: seq<Payment>, f: Form) {
    var q := GetPaymentByFormId.GetPaymentByFormIdQuery(payments, f.id);
    q.Ok? && q.value.Some? && q.value.value.status == Pending
  }

  /** The net amounts of the forms' pending payments, form by form. */
  function PendingAmountOfForms(forms: seq<Form>, payments: seq<Payment>): real
    decreases |forms|
  {
    if forms == [] then 0.0
    else
      (if HasPendingPayment(payments, forms[0])
       then GetPaymentByFormId.GetPaymentByFormIdQuery(payments, forms[0].id).value.value.netAmount
       else 0.0) +
      PendingAmountOfForms(forms[1..], payments)
  }

  /** One step of `PaymentsOfForms`: the first form's payment, if it has one, then the rest. */
  lemma PaymentsOfFormsCons(forms: seq<Form>, payments: seq<Payment>)
    requires forms != [] && PaymentsOfForms(forms, payments).Ok?
    ensures PaymentsOfForms(forms[1..], payments).Ok?
    ensures var q := GetPaymentByFormId.GetPaymentByFormIdQuery(payments, forms[0].id);
            q.Ok? &&
            PaymentsOfForms(forms, payments).value ==
              (if q.value.Some? then [q.value.value] else []) + PaymentsOfForms(forms[1..], payments).value
  {
  }

  /** Whether `form` has exactly one stored payment. */
  predicate HasPayment(payments: seq<Payment>, form: Form) {
    var q := GetPaymentByFormId.GetPaymentByFormIdQuery(payments, form.id);
    q.Ok? && q.value.Some?
  }

  /** `fetched` holds the unique payments of the forms `paid`, one each, in the same order. */
  predicate FetchedInOrder(fetched: seq<Payment>, paid: seq<Form>, payments: seq<Payment>) {
    |fetched| == |paid| &&
    forall i :: 0 <= i < |fetched| ==>
      HasPayment(payments, paid[i]) &&
      fetched[i] == GetPaymentByFormId.GetPaymentByFormIdQuery(payments, paid[i].id).value.value
  }

  /** Putting a paid form's payment in front of matched payments keeps them matched. */
  lemma FetchedInOrderCons(form: Form, fetched: seq<Payment>, paid: seq<Form>, payments: seq<Payment>)
    requires HasPayment(payments, form)
    requires FetchedInOrder(fetched, paid, payments)
    ensures FetchedInOrder([GetPaymentByFormId.GetPaymentByFormIdQuery(payments, form.id).value.value] + fetched,
                           [form] + paid, payments)
  {
    var f2 := [GetPaymentByFormId.GetPaymentByFormIdQuery(payments, form.id).value.value] + fetched;
    var p2 := [form] + paid;
    forall i | 0 <= i < |f2|
      ensures HasPayment(payments, p2[i]) &&
              f2[i] == GetPaymentByFormId.GetPaymentByFormIdQuery(payments, p2[i].id).value.value
    {
      if i > 0 {
        assert f2[i] == fetched[i - 1] && p2[i] == paid[i - 1];
      }
    }
  }

  /** The fetched payments are exactly the unique payments of the forms that
      have one, one per such form, in form order. */
  lemma {:induction false} PaymentsOfFormsInOrder(forms: seq<Form>, payments: seq<Payment>)
    requires PaymentsOfForms(forms, payments).Ok?
    ensures FetchedInOrder(PaymentsOfForms(forms, payments).value,
                           Filter(forms, (f: Form) => HasPayment(payments, f)), payments)
    decreases |forms|
  {
    if forms != [] {
      PaymentsOfFormsCons(forms, payments);
      PaymentsOfFormsInOrder(forms[1..], payments);
      if HasPayment(payments, forms[0]) {
        FetchedInOrderCons(forms[0], PaymentsOfForms(forms[1..], payments).value,
                           Filter(forms[1..], (f: Form) => HasPayment(payments, f)), payments);
      }
    }
  }

  /** Filtering and summing the pending payments of a list with one more payment in front. */
  lemma PendingCons(p: Payment, rest: seq<Payment>)
    ensures PendingOnly([p] + rest) == (if p.status == Pending then [p] else []) + PendingOnly(rest)
    ensures NetTotal([p] + rest) == p.netAmount + NetTotal(rest)
  {
    assert ([p] + rest)[0] == p;
    assert ([p] + rest)[1..] == rest;
  }

  /** The pending fetched payments are one per form whose unique payment is
      pending, and their net amounts add up form by form. */
  lemma {:induction false} PendingMatchesForms(forms: seq<Form>, payments: seq<Payment>)
    requires PaymentsOfForms(forms, payments).Ok?
    ensures |PendingOnly(PaymentsOfForms(forms, payments).value)| ==
            Count(forms, (f: Form) => HasPendingPayment(payments, f))
    ensures NetTotal(PendingOnly(PaymentsOfForms(forms, payments).value)) == PendingAmountOfForms(forms, payments)
    decreases |forms|
  {
    if forms != [] {
      PaymentsOfFormsCons(forms, payments);
      PendingMatchesForms(forms[1..], payments);
      var q := GetPaymentByFormId.GetPaymentByFormIdQuery(payments, forms[0].id);
      var rest := PaymentsOfForms(forms[1..], payments).value;
      if q.value.Some? {
        PendingCons(q.value.value, rest);
        if q.value.value.status == Pending {
          PendingCons(q.value.value, PendingOnly(rest));
        }
      } else {
        assert PaymentsOfForms(forms, payments).value == rest;
      }
    }
  }

  /** The stats count what they name: active forms among the user's forms,
      forms whose payment is pending, and unread notifications among the ten
      most recent, which are all of them when the user has at most ten. */
  lemma StatsCount(identity: Option<string>, users: seq<User>, forms: seq<Form>,
                   notifications: seq<Notification>, cards: seq<HealthCard>,
                   payments: seq<Payment>, categories: seq<JobCategory>,
                   documents: seq<FormDocument>, statsNow: int, cardsNow: int)
    requires var r := GetDashboardDataQuery(identity, users, forms, notifications, cards, payments, categories, documents, statsNow, cardsNow);
             r.Ok? && r.value.Some?
    ensures Lookup(users, identity).Ok? && Lookup(users, identity).value.Some?
    ensures var user := Lookup(users, identity).value.value;
            var d := GetDashboardDataQuery(identity, users, forms, notifications, cards, payments, categories, documents, statsNow, cardsNow).value.value;
            var owned := FormsOfUser(forms, user.id);
            var mine := NotificationsOf(notifications, user.id);
            d.stats.activeApplications == Count(owned, IsActiveForm) &&
            d.stats.pendingPayments == Count(owned, (f: Form) => HasPendingPayment(payments, f)) &&
            d.stats.pendingAmount == PendingAmountOfForms(owned, payments) &&
            d.stats.unreadNotifications == |Unread(RecentNotifications(notifications, user.id))| &&
            (|mine| <= 10 ==> d.stats.unreadNotifications == |Unread(mine)|)
  {
    var user := Lookup(users, identity).value.value;
    var owned := FormsOfUser(forms, user.id);
    var userPayments := PaymentsOfForms(owned, payments).value;
    var mine := NotificationsOf(notifications, user.id);
    ActiveCountsForms(owned, categories, documents, userPayments);
    PendingMatchesForms(owned, payments);
    if |mine| <= 10 {
      assert RecentNotifications(notifications, user.id) == Reverse(mine);
      CountReverse(mine, (n: Notification) => !n.read);
    }
  }

  /** A produced dashboard is the assembly of the user's data. */
  lemma QueryAssembles(identity: Option<string>, users: seq<User>, forms: seq<Form>,
                       notifications: seq<Notification>, cards: seq<HealthCard>,
                       payments: seq<Payment>, categories: seq<JobCategory>,
                       documents: seq<FormDocument>, statsNow: int, cardsNow: int)
    requires var r := GetDashboardDataQuery(identity, users, forms, notifications, cards, payments, categories, documents, statsNow, cardsNow);
             r.Ok? && r.value.Some?
    ensures Lookup(users, identity).Ok? && Lookup(users, identity).value.Some?
    ensures var user := Lookup(users, identity).value.value;
            var owned := FormsOfUser(forms, user.id);
            PaymentsOfForms(owned, payments).Ok? &&
            GetDashboardDataQuery(identity, users, forms, notifications, cards, payments, categories, documents, statsNow, cardsNow).value.value ==
            Assemble(user, owned, RecentNotifications(notifications, user.id), CardsOfForms(cards, owned),
                     PaymentsOfForms(owned, payments).value, categories, documents, statsNow, cardsNow)
  {
  }

  /** The dashboard shows the five newest notifications, newest first. */
  lemma ShownNotifications(identity: Option<string>, users: seq<User>, forms: seq<Form>,
                           notifications: seq<Notification>, cards: seq<HealthCard>,
                           payments: seq<Payment>, categories: seq<JobCategory>,
                           documents: seq<FormDocument>, statsNow: int, cardsNow: int)
    requires var r := GetDashboardDataQuery(identity, users, forms, notifications, cards, payments, categories, documents, statsNow, cardsNow);
             r.Ok? && r.value.Some?
    ensures Lookup(users, identity).Ok? && Lookup(users, identity).value.Some?
    ensures var user := Lookup(users, identity).value.value;
            var d := GetDashboardDataQuery(identity, users, forms, notifications, cards, payments, categories, documents, statsNow, cardsNow).value.value;
            var mine := NotificationsOf(notifications, user.id);
            |d.notifications| == (if |mine| <= 5 then |mine| else 5) &&
            forall i :: 0 <= i < |d.notifications| ==> d.notifications[i] == NotificationView(mine[|mine| - 1 - i])
  {
    QueryAssembles(identity, users, forms, notifications, cards, payments, categories, documents, statsNow, cardsNow);
  }

  /** `shown` are the views of the last three of `fetched` (all when fewer), in fetch order. */
  predicate ShowsLastPayments(shown: seq<RecentPayment>, fetched: seq<Payment>, forms: seq<Form>) {
    |shown| == (if |fetched| <= 3 then |fetched| else 3) &&
    forall i :: 0 <= i < |shown| ==> shown[i] == PaymentView(fetched[|fetched| - |shown| + i], forms)
  }

  /** The dashboard shows the views of the last three fetched payments, in fetch order. */
  lemma ShownPayments(identity: Option<string>, users: seq<User>, forms: seq<Form>,
                      notifications: seq<Notification>, cards: seq<HealthCard>,
                      payments: seq<Payment>, categories: seq<JobCategory>,
                      documents: seq<FormDocument>, statsNow: int, cardsNow: int)
    requires var r := GetDashboardDataQuery(identity, users, forms, notifications, cards, payments, categories, documents, statsNow, cardsNow);
             r.Ok? && r.value.Some?
    ensures Lookup(users, identity).Ok? && Lookup(users, identity).value.Some?
    ensures var user := Lookup(users, identity).value.value;
            var owned := FormsOfUser(forms, user.id);
            PaymentsOfForms(owned, payments).Ok? &&
            var d := GetDashboardDataQuery(identity, users, forms, notifications, cards, payments, categories, documents, statsNow, cardsNow).value.value;
            var fetched := PaymentsOfForms(owned, payments).value;
            ShowsLastPayments(d.payments, fetched, owned)
  {
    QueryAssembles(identity, users, forms, notifications, cards, payments, categories, documents, statsNow, cardsNow);
    var user := Lookup(users, identity).value.value;
    var owned := FormsOfUser(forms, user.id);
    AssembledPayments(user, owned, RecentNotifications(notifications, user.id), CardsOfForms(cards, owned),
                      PaymentsOfForms(owned, payments).value, categories, documents, statsNow, cardsNow);
  }

  /** The assembled payments are the views of the last three given payments. */
  lemma AssembledPayments(user: User, forms: seq<Form>, recent: seq<Notification>, cards: seq<HealthCard>,
                          userPayments: seq<Payment>, categories: seq<JobCategory>, documents: seq<FormDocument>,
                          statsNow: int, cardsNow: int)
    ensures ShowsLastPayments(Assemble(user, forms, recent, cards, userPayments, categories, documents, statsNow, cardsNow).payments,
                              userPayments, forms)
  {
  }

  /** The dashboard shows every unexpired card of the user's forms. */
  lemma ShownCards(identity: Option<string>, users: seq<User>, forms: seq<Form>,
                   notifications: seq<Notification>, cards: seq<HealthCard>,
                   payments: seq<Payment>, categories: seq<JobCategory>,
                   documents: seq<FormDocument>, statsNow: int, cardsNow: int)
    requires var r := GetDashboardDataQuery(identity, users, forms, notifications, cards, payments, categories, documents, statsNow, cardsNow);
             r.Ok? && r.value.Some?
    ensures Lookup(users, identity).Ok? && Lookup(users, identity).value.Some?
    ensures var user := Lookup(users, identity).value.value;
            var d := GetDashboardDataQuery(identity, users, forms, notifications, cards, payments, categories, documents, statsNow, cardsNow).value.value;
            var owned := FormsOfUser(forms, user.id);
            forall c :: c in cards && OwnsForm(owned, c.formId) && c.expiresAt > cardsNow ==> CardView(c) in d.healthCards
  {
    QueryAssembles(identity, users, forms, notifications, cards, payments, categories, documents, statsNow, cardsNow);
    var user := Lookup(users, identity).value.value;
    var owned := FormsOfUser(forms, user.id);
    var d := GetDashboardDataQuery(identity, users, forms, notifications, cards, payments, categories, documents, statsNow, cardsNow).value.value;
    var shown := Unexpired(CardsOfForms(cards, owned), cardsNow);
    forall c | c in cards && OwnsForm(owned, c.formId) && c.expiresAt > cardsNow
      ensures CardView(c) in d.healthCards
    {
      assert c in shown;
      var i :| 0 <= i < |shown| && shown[i] == c;
      assert d.healthCards[i] == CardView(c);
    }
  }
}

=== FILE: dashboard_page.dfy ===
/** The admin dashboard page's derived state: the arguments it passes to the
    list query, the category-filter effect, the search filter, the status
    tallies and which screen it shows. Rendering is not modelled. */
module DashboardPage {
  import opened Wrappers
  import opened Schema
  import opened Seqs
  import opened AdminAccess

  /** The page's state fields that the effect updates. */
  class Filters {
    var search: string
    var statusFilter: string
    var categoryFilter: string

    /** The initial `useState("")` values. */
    constructor ()
      ensures search == "" && statusFilter == "" && categoryFilter == ""
    {
      search, statusFilter, categoryFilter := "", "", "";
    }

    /** The category-filter effect (lines 37-47), run when the privileges
        arrive: scope "all" clears the filter, exactly one managed category
        selects it, and anything else leaves the filter as it was. */
    method ApplyPrivileges(privileges: Option<AdminCheck>)
      modifies this`categoryFilter
      ensures privileges.Some? && privileges.value.managedCategories == All ==> categoryFilter == ""
      ensures privileges.Some? && privileges.value.managedCategories.Ids? && |privileges.value.managedCategories.ids| == 1 ==>
                categoryFilter == privileges.value.managedCategories.ids[0]
      ensures privileges.None? ||
              (privileges.value.managedCategories.Ids? && |privileges.value.managedCategories.ids| != 1) ||
              privileges.value.managedCategories == Absent ==>
                categoryFilter == old(categoryFilter)
    {
      if privileges.Some? {
        var scope := privileges.value.managedCategories;
        if scope == All {
          categoryFilter := "";
          return;
        }
        if scope.Ids? && |scope.ids| == 1 {
          categoryFilter := scope.ids[0];
        }
      }
    }
  }

  /** Lines 31-32: an empty dropdown value is sent as undefined. */
  function ListArguments(statusFilter: string, categoryFilter: string): (args: (Option<string>, Option<CategoryId>))
    ensures args.0.None? <==> statusFilter == ""
    ensures args.1.None? <==> categoryFilter == ""
    ensures args.0.Some? ==> args.0.value == statusFilter
    ensures args.1.Some? ==> args.1.value == categoryFilter
  {
    (if statusFilter == "" then None else Some(statusFilter),
     if categoryFilter == "" then None else Some(categoryFilter))
  }

  /** A row as the page reads it: the fields it uses, both possibly missing. */
  datatype Row = Row(userName: Option<string>, applicationStatus: Option<string>)

  /** ASCII case folding, standing for `toLowerCase`. */
  function LowerChar(c: char): char {
    if 'A' <= c <= 'Z' then (c as int + 32) as char else c
  }

  function Lower(s: string): (r: string)
    ensures |r| == |s| && forall i :: 0 <= i < |s| ==> r[i] == LowerChar(s[i])
  {
    seq(|s|, i requires 0 <= i < |s| => LowerChar(s[i]))
  }

  /** `haystack.includes(needle)`: `needle` starts at some position of `haystack`. */
  predicate Includes(haystack: string, needle: string)
    decreases |haystack|
  {
    needle <= haystack || (haystack != [] && Includes(haystack[1..], needle))
  }

  /** Whether a row passes the search box (`app.userName?.toLowerCase().includes(search.toLowerCase())`). */
  predicate Matches(row: Row, search: string) {
    row.userName.Some? && Includes(Lower(row.userName.value), Lower(search))
  }

  /** The rows the table shows (lines 62-64); no data yet counts as no rows. */
  function Search(applications: Option<seq<Row>>, search: string): (r: seq<Row>)
    ensures var rows := if applications.Some? then applications.value else [];
            |r| <= |rows| && forall row :: row in r <==> row in rows && Matches(row, search)
  {
    var rows := if applications.Some? then applications.value else [];
    Filter(rows, (row: Row) => Matches(row, search))
  }

  /** An empty search keeps every row that has a user name, in order. */
  lemma EmptySearchKeepsNamedRows(rows: seq<Row>)
    ensures Search(Some(rows), "") == Filter(rows, (row: Row) => row.userName.Some?)
  {
    assert Lower("") == "";
    FilterCongruent(rows, (row: Row) => Matches(row, ""), (row: Row) => row.userName.Some?);
  }

  /** The rows whose `applicationStatus` is exactly `status`. */
  function Tally(rows: seq<Row>, status: string): (n: nat)
    ensures n <= |rows|
  {
    Count(rows, (row: Row) => row.applicationStatus == Some(status))
  }

  datatype Tallies = Tallies(
    totalPending: nat, totalApproved: nat, totalRejected: nat,
    totalForDocVerification: nat, totalForPaymentValidation: nat, totalForOrientation: nat)

  /** Lines 65-71. */
  function ComputeTallies(applications: Option<seq<Row>>): (t: Tallies)
    ensures var rows := if applications.Some? then applications.value else [];
            t.totalPending <= |rows| && t.totalApproved <= |rows| && t.totalRejected <= |rows| &&
            t.totalForDocVerification <= |rows| && t.totalForPaymentValidation <= |rows| &&
            t.totalForOrientation <= |rows|
  {
    var rows := if applications.Some? then applications.value else [];
    Tallies(
      Tally(rows, "Submitted"), Tally(rows, "Approved"), Tally(rows, "Rejected"),
      Tally(rows, "For Document Verification"), Tally(rows, "For Payment Validation"),
      Tally(rows, "For Orientation"))
  }

  function Sum(t: Tallies): nat {
    t.totalPending + t.totalApproved + t.totalRejected +
    t.totalForDocVerification + t.totalForPaymentValidation + t.totalForOrientation
  }

  /** Counting a non-empty list: the head row, then the rest. */
  lemma TallyCons(rows: seq<Row>, status: string)
    requires rows != []
    ensures Tally(rows, status) == (if rows[0].applicationStatus == Some(status) then 1 else 0) + Tally(rows[1..], status)
  {
  }

  /** The six statuses are distinct, so no row is counted twice: the tallies
      together never exceed the number of rows. */
  lemma {:induction false} TalliesPartition(rows: seq<Row>)
    ensures Sum(ComputeTallies(Some(rows))) <= |rows|
    decreases |rows|
  {
    if rows != [] {
      TalliesPartition(rows[1..]);
      TallyCons(rows, "Submitted");
      TallyCons(rows, "Approved");
      TallyCons(rows, "Rejected");
      TallyCons(rows, "For Document Verification");
      TallyCons(rows, "For Payment Validation");
      TallyCons(rows, "For Orientation");
    }
  }

  /** What the page shows. */
  datatype Screen = Loading | SignIn | AccessDenied | Dashboard

  /** Lines 75-97: loading until the sign-in state, the privileges and the
      categories are known; then sign-in, access denied for a non-admin, or
      the dashboard. */
  function ScreenFor(clerkLoaded: bool, signedIn: bool, privileges: Option<AdminCheck>, categoriesLoaded: bool): (s: Screen)
    ensures s == Dashboard <==> clerkLoaded && categoriesLoaded && signedIn && privileges.Some? && privileges.value.isAdmin
    ensures s == AccessDenied <==> clerkLoaded && categoriesLoaded && signedIn && privileges.Some? && !privileges.value.isAdmin
  {
    if !clerkLoaded || privileges.None? || !categoriesLoaded then Loading
    else if !signedIn then SignIn
    else if !privileges.value.isAdmin then AccessDenied
    else Dashboard
  }
}

=== FILE: documents.dfy ===
/** `getByForm` of convex/documents.ts: a form's uploaded documents, each with
    the name of the requirement it answers. */
module Documents {
  import opened Wrappers
  import opened Schema
  import opened Seqs
  import opened Store

  /** A document with its requirement's name (`{ ...doc, documentName }`). */
  datatype DocumentWithName = DocumentWithName(doc: FormDocument, documentName: string)

  /** The `formDocuments` `by_form` index query: one form's documents, in table order. */
  function DocumentsOfForm(documents: seq<FormDocument>, formId: FormId): (r: seq<FormDocument>)
    ensures forall d :: d in r <==> d in documents && d.formId == formId
    ensures |r| <= |documents|
  {
    Filter(documents, (d: FormDocument) => d.formId == formId)
  }

  /** `requirement?.name ?? "Unknown Document"`. */
  function DocumentName(requirements: seq<DocumentRequirement>, id: RequirementId): (name: string)
    ensures Get(requirements, RequirementKey, id).None? ==> name == "Unknown Document"
    ensures Get(requirements, RequirementKey, id).Some? ==> name == Get(requirements, RequirementKey, id).value.name
  {
    match Get(requirements, RequirementKey, id)
    case Some(r) => r.name
    case None => "Unknown Document"
  }

  /** One row per document of the form, in order, each document kept whole. */
  function GetByForm(documents: seq<FormDocument>, requirements: seq<DocumentRequirement>, formId: FormId)
    : (r: seq<DocumentWithName>)
    ensures |r| == |DocumentsOfForm(documents, formId)|
    ensures forall i :: 0 <= i < |r| ==> r[i].doc == DocumentsOfForm(documents, formId)[i]
    ensures forall row :: row in r ==> row.doc in documents && row.doc.formId == formId &&
                                       row.documentName == DocumentName(requirements, row.doc.documentRequirementId)
  {
    var docs := DocumentsOfForm(documents, formId);
    var r := seq(|docs|, i requires 0 <= i < |docs| => DocumentWithName(docs[i], DocumentName(requirements, docs[i].documentRequirementId)));
    assert forall row :: row in r ==> exists i :: 0 <= i < |docs| && row == r[i];
    assert forall i :: 0 <= i < |docs| ==> docs[i] in docs;
    r
  }
}

=== FILE: finalize_application.dfy ===
/** The `finalize` mutation: an admin's terminal decision on an application,
    guarded by the review state of the application's uploaded documents. */
module FinalizeApplication {
  import opened Wrappers
  import opened Seqs
  import opened Store

  /** The `newStatus` argument: `v.union(v.literal("Approved"), v.literal("Rejected"))`. */
  datatype Decision = Approved | Rejected

  function DecisionName(d: Decision): string {
    match d
    case Approved => "Approved"
    case Rejected => "Rejected"
  }

  const PendingMessage := "Please review and assign a status (Approve or Reject) to all documents before proceeding."
  const NoRejectedMessage := "To reject the application, at least one document must be marked as 'Rejected'."

  /** The `by_application` index query: the uploads of one application, in table order. */
  function UploadsOf(uploads: seq<DocumentUpload>, applicationId: ApplicationId): (r: seq<DocumentUpload>)
    ensures forall d :: d in r <==> d in uploads && d.applicationId == applicationId
  {
    Filter(uploads, (d: DocumentUpload) => d.applicationId == applicationId)
  }

  /** `docs.some(doc => doc.reviewStatus === status)`. */
  predicate SomeWithStatus(docs: seq<DocumentUpload>, status: string) {
    exists d :: d in docs && d.reviewStatus == status
  }

  /** The error the guards throw before anything is patched, if any. */
  function GuardError(uploadedDocs: seq<DocumentUpload>, newStatus: Decision): Option<string> {
    if SomeWithStatus(uploadedDocs, "Pending") then Some(PendingMessage)
    else if newStatus == Rejected && !SomeWithStatus(uploadedDocs, "Rejected") then Some(NoRejectedMessage)
    else None
  }

  /** The record after the patch: status, remarks and both timestamps are
      written; `approvedAt` is cleared unless the decision is an approval. */
  function Patched(app: Application, newStatus: Decision, remarks: Option<string>,
                   updatedNow: int, approvedNow: int): (r: Application)
    ensures r.id == app.id && r.otherFields == app.otherFields
    ensures r.applicationStatus == Some(DecisionName(newStatus))
    ensures r.adminRemarks == remarks && r.updatedAt == Some(updatedNow)
    ensures r.approvedAt.Some? <==> r.applicationStatus == Some("Approved")
    ensures r.approvedAt.Some? ==> r.approvedAt.value == approvedNow
  {
    app.(applicationStatus := Some(DecisionName(newStatus)),
         adminRemarks := remarks,
         updatedAt := Some(updatedNow),
         approvedAt := if newStatus == Approved then Some(approvedNow) else None)
  }

  /** The `applications` table after a successful finalize of `applicationId`. */
  function FinalizedTable(apps: seq<Application>, applicationId: ApplicationId, newStatus: Decision,
                          remarks: Option<string>, updatedNow: int, approvedNow: int): (r: seq<Application>)
    requires UniqueIds(apps, ApplicationKey)
    ensures |r| == |apps| && UniqueIds(r, ApplicationKey)
    ensures forall i :: 0 <= i < |apps| ==>
      r[i] == if apps[i].id == applicationId then Patched(apps[i], newStatus, remarks, updatedNow, approvedNow) else apps[i]
  {
    match IndexOfId(apps, ApplicationKey, applicationId)
    case None => apps
    case Some(i) => apps[i := Patched(apps[i], newStatus, remarks, updatedNow, approvedNow)]
  }

  /** The mutation. `updatedNow` and `approvedNow` are the two `Date.now()`
      readings; the admin check's result is discarded by the source, so it
      does not appear. Returns `Ok(true)` for `{ success: true }`. */
  method Finalize(db: Database, applicationId: ApplicationId, newStatus: Decision,
                  remarks: Option<string>, updatedNow: int, approvedNow: int) returns (r: Result<bool>)
    requires db.Valid()
    modifies db`applications
    ensures db.Valid()
    ensures r.Ok? <==> GuardError(UploadsOf(db.documentUploads, applicationId), newStatus).None? &&
                       HasId(old(db.applications), ApplicationKey, applicationId)
    ensures GuardError(UploadsOf(db.documentUploads, applicationId), newStatus).Some? ==>
              r == Err(GuardError(UploadsOf(db.documentUploads, applicationId), newStatus).value)
    ensures (GuardError(UploadsOf(db.documentUploads, applicationId), newStatus).None? &&
             !HasId(old(db.applications), ApplicationKey, applicationId)) ==> r == Err(PatchMissing)
    ensures r.Ok? ==> r.value
    ensures r.Ok? ==> db.applications ==
                      FinalizedTable(old(db.applications), applicationId, newStatus, remarks, updatedNow, approvedNow)
    ensures r.Err? ==> db.applications == old(db.applications)
  {
    var uploadedDocs := UploadsOf(db.documentUploads, applicationId);
    var guard := GuardError(uploadedDocs, newStatus);
    if guard.Some? {
      return Err(guard.value);
    }
    var index := IndexOfId(db.applications, ApplicationKey, applicationId);
    if index.None? {
      return Err(PatchMissing);
    }
    var i := index.value;
    db.applications := db.applications[i := Patched(db.applications[i], newStatus, remarks, updatedNow, approvedNow)];
    r := Ok(true);
  }

  /** Approval is blocked exactly by a pending upload of this application;
      rejected uploads do not block it. */
  lemma ApproveAllowedIff(uploads: seq<DocumentUpload>, applicationId: ApplicationId)
    ensures GuardError(UploadsOf(uploads, applicationId), Approved).None? <==>
            forall d :: d in uploads && d.applicationId == applicationId ==> d.reviewStatus != "Pending"
  {
  }

  /** Rejection needs no pending upload and at least one rejected upload of this application. */
  lemma RejectAllowedIff(uploads: seq<DocumentUpload>, applicationId: ApplicationId)
    ensures GuardError(UploadsOf(uploads, applicationId), Rejected).None? <==>
            (forall d :: d in uploads && d.applicationId == applicationId ==> d.reviewStatus != "Pending") &&
            (exists d :: d in uploads && d.applicationId == applicationId && d.reviewStatus == "Rejected")
  {
  }

  /** With no uploads for the application, approval passes the guards and rejection does not. */
  lemma NoUploads(uploads: seq<DocumentUpload>, applicationId: ApplicationId)
    requires forall d :: d in uploads ==> d.applicationId != applicationId
    ensures GuardError(UploadsOf(uploads, applicationId), Approved) == None
    ensures GuardError(UploadsOf(uploads, applicationId), Rejected) == Some(NoRejectedMessage)
  {
    assert UploadsOf(uploads, applicationId) == [] by {
      FilterAllOrNothing(uploads, (d: DocumentUpload) => d.applicationId == applicationId);
    }
  }

  /** Uploads of other applications never change the guards' verdict. */
  lemma OtherApplicationsIgnored(uploads: seq<DocumentUpload>, other: DocumentUpload,
                                 applicationId: ApplicationId, newStatus: Decision)
    requires other.applicationId != applicationId
    ensures GuardError(UploadsOf(uploads + [other], applicationId), newStatus) ==
            GuardError(UploadsOf(uploads, applicationId), newStatus)
  {
  }

  /** A record keeps `approvedAt` exactly while its status is "Approved". */
  predicate ApprovedAtConsistent(app: Application) {
    app.approvedAt.Some? <==> app.applicationStatus == Some("Approved")
  }

  /** Finalizing preserves that `approvedAt` is set exactly on approved records. */
  lemma FinalizePreservesApprovedAt(apps: seq<Application>, applicationId: ApplicationId, newStatus: Decision,
                                    remarks: Option<string>, updatedNow: int, approvedNow: int)
    requires UniqueIds(apps, ApplicationKey)
    requires forall a :: a in apps ==> ApprovedAtConsistent(a)
    ensures forall a :: a in FinalizedTable(apps, applicationId, newStatus, remarks, updatedNow, approvedNow) ==>
              ApprovedAtConsistent(a)
  {
    var r := FinalizedTable(apps, applicationId, newStatus, remarks, updatedNow, approvedNow);
    forall a | a in r
      ensures ApprovedAtConsistent(a)
    {
      var i :| 0 <= i < |r| && r[i] == a;
      assert apps[i] in apps;
    }
  }
}

=== FILE: forms_list.dfy ===
/** The admin's application list (`list` in convex/forms/list.ts): the admin
    gate, the status and category filters of the dashboard, the security
    filter by managed categories, then a join with display names. */
module FormsList {
  import opened Wrappers
  import opened Schema
  import opened Seqs
  import opened Store
  import opened AdminAccess

  /** A form with the display names joined onto it (`{ ...form, userName, jobCategoryName }`). */
  datatype FormWithDetails = FormWithDetails(form: Form, userName: string, jobCategoryName: string)

  /** JavaScript truthiness of an optional string argument: absent and "" apply no filter. */
  predicate Given(arg: Option<string>) {
    arg.Some? && arg.value != ""
  }

  /** The reference visibility rule: an admin sees a form exactly when its
      category is in scope and it matches every filter that was given. */
  predicate Visible(check: AdminCheck, status: Option<string>, jobCategory: Option<CategoryId>, f: Form) {
    check.isAdmin && InScope(check.managedCategories, f.jobCategory) &&
    (!Given(status) || f.status == status.value) &&
    (!Given(jobCategory) || f.jobCategory == jobCategory.value)
  }

  /** The status dropdown's filter. */
  function ByStatus(forms: seq<Form>, status: Option<string>): seq<Form> {
    if Given(status) then Filter(forms, (f: Form) => f.status == status.value) else forms
  }

  /** The category dropdown's filter. */
  function ByCategory(forms: seq<Form>, jobCategory: Option<CategoryId>): seq<Form> {
    if Given(jobCategory) then Filter(forms, (f: Form) => f.jobCategory == jobCategory.value) else forms
  }

  /** The security filter: forms whose category is one of `ids`. */
  function ByManaged(forms: seq<Form>, ids: seq<CategoryId>): seq<Form> {
    Filter(forms, (f: Form) => f.jobCategory in ids)
  }

  /** Lines 15-46: the forms the handler collects, with its early returns. */
  function SelectForms(check: AdminCheck, status: Option<string>, jobCategory: Option<CategoryId>,
                       forms: seq<Form>): seq<Form>
  {
    if !check.isAdmin then []
    else
      var filtered := ByCategory(ByStatus(forms, status), jobCategory);
      match check.managedCategories
      case All => filtered
      case Absent => []
      case Ids(ids) => if |ids| == 0 then [] else ByManaged(filtered, ids)
  }

  /** `user?.fullname ?? "Unknown User"`. */
  function UserName(users: seq<User>, userId: UserId): (name: string)
    ensures Get(users, UserKey, userId).None? ==> name == "Unknown User"
    ensures Get(users, UserKey, userId).Some? ==> name == Get(users, UserKey, userId).value.fullname
  {
    match Get(users, UserKey, userId)
    case Some(u) => u.fullname
    case None => "Unknown User"
  }

  /** `jobCategory?.name ?? "Unknown Category"`. */
  function CategoryName(categories: seq<JobCategory>, id: CategoryId): (name: string)
    ensures Get(categories, CategoryKey, id).None? ==> name == "Unknown Category"
    ensures Get(categories, CategoryKey, id).Some? ==> name == Get(categories, CategoryKey, id).value.name
  {
    match Get(categories, CategoryKey, id)
    case Some(c) => c.name
    case None => "Unknown Category"
  }

  /** Lines 49-59: one row per form, in order, each form kept whole. */
  function JoinDetails(forms: seq<Form>, users: seq<User>, categories: seq<JobCategory>): (r: seq<FormWithDetails>)
    ensures |r| == |forms|
    ensures forall i :: 0 <= i < |forms| ==>
      r[i].form == forms[i] &&
      r[i].userName == UserName(users, forms[i].userId) &&
      r[i].jobCategoryName == CategoryName(categories, forms[i].jobCategory)
  {
    seq(|forms|, i requires 0 <= i < |forms| =>
      FormWithDetails(forms[i], UserName(users, forms[i].userId), CategoryName(categories, forms[i].jobCategory)))
  }

  /** The query. */
  function List(check: AdminCheck, status: Option<string>, jobCategory: Option<CategoryId>,
                forms: seq<Form>, users: seq<User>, categories: seq<JobCategory>): (r: seq<FormWithDetails>)
    ensures !check.isAdmin ==> r == []
    ensures check.managedCategories == Absent || check.managedCategories == Ids([]) ==> r == []
    ensures forall row :: row in r ==> row.form in forms && Visible(check, status, jobCategory, row.form)
  {
    var selected := SelectForms(check, status, jobCategory, forms);
    SelectedAreVisible(check, status, jobCategory, forms);
    JoinDetails(selected, users, categories)
  }

  /** The staged filters select exactly the visible forms, in table order:
      the same as filtering the table once by the reference rule. */
  lemma {:induction false} SelectFormsIsVisibleFilter(check: AdminCheck, status: Option<string>,
                                                      jobCategory: Option<CategoryId>, forms: seq<Form>)
    ensures SelectForms(check, status, jobCategory, forms) ==
            Filter(forms, (f: Form) => Visible(check, status, jobCategory, f))
  {
    var visible := (f: Form) => Visible(check, status, jobCategory, f);
    var uiOnly := (f: Form) => (!Given(status) || f.status == status.value) &&
                               (!Given(jobCategory) || f.jobCategory == jobCategory.value);
    var byStatus := ByStatus(forms, status);
    var filtered := ByCategory(byStatus, jobCategory);
    // The two UI filters together are one filter by `uiOnly`.
    var statusOnly := (f: Form) => !Given(status) || f.status == status.value;
    assert byStatus == Filter(forms, statusOnly) by {
      if Given(status) {
        FilterCongruent(forms, (f: Form) => f.status == status.value, statusOnly);
      } else {
        FilterAllOrNothing(forms, statusOnly);
      }
    }
    assert filtered == Filter(byStatus, uiOnly) by {
      if Given(jobCategory) {
        FilterCongruent(byStatus, (f: Form) => f.jobCategory == jobCategory.value, uiOnly);
      } else {
        FilterAllOrNothing(byStatus, uiOnly);
      }
    }
    FilterTwice(forms, statusOnly, uiOnly, uiOnly);
    if !check.isAdmin || check.managedCategories == Absent || check.managedCategories == Ids([]) {
      FilterAllOrNothing(forms, visible);
    } else if check.managedCategories == All {
      FilterCongruent(forms, uiOnly, visible);
    } else {
      var ids := check.managedCategories.ids;
      FilterTwice(forms, uiOnly, (f: Form) => f.jobCategory in ids, visible);
    }
  }

  /** Every selected form is visible, and every visible form is selected. */
  lemma SelectedAreVisible(check: AdminCheck, status: Option<string>, jobCategory: Option<CategoryId>, forms: seq<Form>)
    ensures forall f :: f in SelectForms(check, status, jobCategory, forms) <==>
                        f in forms && Visible(check, status, jobCategory, f)
  {
    SelectFormsIsVisibleFilter(check, status, jobCategory, forms);
  }

  /** The list has one row per visible form, in table order. */
  lemma ListRows(check: AdminCheck, status: Option<string>, jobCategory: Option<CategoryId>,
                 forms: seq<Form>, users: seq<User>, categories: seq<JobCategory>)
    ensures var r := List(check, status, jobCategory, forms, users, categories);
            var visible := Filter(forms, (f: Form) => Visible(check, status, jobCategory, f));
            |r| == |visible| && forall i :: 0 <= i < |r| ==> r[i].form == visible[i]
  {
    SelectFormsIsVisibleFilter(check, status, jobCategory, forms);
  }

  /** With scope "all", exactly the forms passing the dropdown filters appear. */
  lemma AllScopeAppliesOnlyUiFilters(status: Option<string>, jobCategory: Option<CategoryId>, forms: seq<Form>, f: Form)
    ensures f in SelectForms(AdminCheck(true, All), status, jobCategory, forms) <==>
            f in forms && (!Given(status) || f.status == status.value) && (!Given(jobCategory) || f.jobCategory == jobCategory.value)
  {
    SelectedAreVisible(AdminCheck(true, All), status, jobCategory, forms);
  }

  /** Asking for a category outside a managed list is a silent empty result, not an error. */
  lemma CategoryOutsideScopeIsEmpty(isAdmin: bool, ids: seq<CategoryId>, status: Option<string>,
                                    c: CategoryId, forms: seq<Form>, users: seq<User>, categories: seq<JobCategory>)
    requires c != "" && c !in ids
    ensures List(AdminCheck(isAdmin, Ids(ids)), status, Some(c), forms, users, categories) == []
  {
    var check := AdminCheck(isAdmin, Ids(ids));
    SelectFormsIsVisibleFilter(check, status, Some(c), forms);
    FilterAllOrNothing(forms, (f: Form) => Visible(check, status, Some(c), f));
  }
}

=== FILE: get_payment_by_form_id.dfy ===
/** `getPaymentByFormIdQuery`: the payment of a form through the `by_form`
    index with `unique()`. The index does not enforce one payment per form,
    so a second payment makes the query fail. */
module GetPaymentByFormId {
  import opened Wrappers
  import opened Schema
  import opened Seqs
  import Payments

  function GetPaymentByFormIdQuery(payments: seq<Payment>, formId: FormId): (r: Result<Option<Payment>>)
    ensures r.Err? <==> Count(payments, (p: Payment) => p.formId == formId) > 1
    ensures r == Ok(None) <==> forall p :: p in payments ==> p.formId != formId
    ensures r.Ok? && r.value.Some? ==> r.value.value in payments && r.value.value.formId == formId
  {
    Unique(payments, (p: Payment) => p.formId == formId)
  }

  /** Where `unique()` succeeds it agrees with `getByForm`'s `first()`; where
      it fails, the form has a payment that `first()` would have returned. */
  lemma AgreesWithGetByForm(payments: seq<Payment>, formId: FormId)
    ensures GetPaymentByFormIdQuery(payments, formId).Ok? ==>
              GetPaymentByFormIdQuery(payments, formId).value == Payments.GetByForm(payments, formId)
    ensures GetPaymentByFormIdQuery(payments, formId).Err? ==> Payments.GetByForm(payments, formId).Some?
  {
  }
}

=== FILE: payments.dfy ===
/** `getByForm` and `updateStatus`: the payment of a form, and the admin's
    payment-validation decision. */
module Payments {
  import opened Wrappers
  import opened Schema
  import opened Seqs
  import opened Store
  import opened AdminAccess

  /** The `status` argument of `updateStatus`: `Complete` or `Failed` only. */
  type ValidationStatus = s: PaymentStatus | s == Complete || s == Failed witness Complete

  const NoPermissionMessage := "You do not have permission to update payment status."

  /** `getByForm`: the first payment of the form in index order, or null. */
  function GetByForm(payments: seq<Payment>, formId: FormId): (r: Option<Payment>)
    ensures r.None? <==> forall p :: p in payments ==> p.formId != formId
    ensures r.Some? ==> exists i :: 0 <= i < |payments| && payments[i] == r.value && r.value.formId == formId &&
                                    forall j :: 0 <= j < i ==> payments[j].formId != formId
  {
    First(payments, (p: Payment) => p.formId == formId)
  }

  /** The payments table with the status of payment `paymentId` replaced; every
      other field and every other payment is untouched. */
  function WithStatus(payments: seq<Payment>, paymentId: PaymentId, status: PaymentStatus): (r: seq<Payment>)
    requires UniqueIds(payments, PaymentKey)
    ensures |r| == |payments| && UniqueIds(r, PaymentKey)
    ensures forall i :: 0 <= i < |payments| ==>
      r[i] == if payments[i].id == paymentId then payments[i].(status := status) else payments[i]
  {
    match IndexOfId(payments, PaymentKey, paymentId)
    case None => payments
    case Some(i) => payments[i := payments[i].(status := status)]
  }

  /** Setting the same status twice is the same as setting it once. */
  lemma WithStatusIdempotent(payments: seq<Payment>, paymentId: PaymentId, status: PaymentStatus)
    requires UniqueIds(payments, PaymentKey)
    ensures WithStatus(WithStatus(payments, paymentId, status), paymentId, status) == WithStatus(payments, paymentId, status)
  {
    var once := WithStatus(payments, paymentId, status);
    var twice := WithStatus(once, paymentId, status);
    assert forall i :: 0 <= i < |payments| ==> twice[i] == once[i];
  }

  /** After the patch the payment carries the new status, whatever it had before. */
  lemma WithStatusSets(payments: seq<Payment>, paymentId: PaymentId, status: PaymentStatus)
    requires UniqueIds(payments, PaymentKey)
    ensures forall p :: p in WithStatus(payments, paymentId, status) && p.id == paymentId ==> p.status == status
    ensures HasId(WithStatus(payments, paymentId, status), PaymentKey, paymentId) <==> HasId(payments, PaymentKey, paymentId)
  {
    var r := WithStatus(payments, paymentId, status);
    forall p | p in r && p.id == paymentId
      ensures p.status == status
    {
      var i :| 0 <= i < |r| && r[i] == p;
    }
  }

  /** `updateStatus`: a non-admin caller is refused and nothing changes; an
      admin's call patches only the payment's `status` (not `updatedAt`).
      Returns `Ok(true)` for `{ success: true }`. */
  method UpdateStatus(db: Database, adminCheck: AdminCheck, paymentId: PaymentId, status: ValidationStatus)
    returns (r: Result<bool>)
    requires db.Valid()
    modifies db`payments
    ensures db.Valid()
    ensures !adminCheck.isAdmin ==> r == Err(NoPermissionMessage) && db.payments == old(db.payments)
    ensures adminCheck.isAdmin && !HasId(old(db.payments), PaymentKey, paymentId) ==>
              r == Err(PatchMissing) && db.payments == old(db.payments)
    ensures adminCheck.isAdmin && HasId(old(db.payments), PaymentKey, paymentId) ==>
              r == Ok(true) && db.payments == WithStatus(old(db.payments), paymentId, status)
  {
    if !adminCheck.isAdmin {
      return Err(NoPermissionMessage);
    }
    if !HasId(db.payments, PaymentKey, paymentId) {
      return Err(PatchMissing);
    }
    db.payments := WithStatus(db.payments, paymentId, status);
    r := Ok(true);
  }
}

=== FILE: remove_job_category_requirement.dfy ===
/** `deleteJobCategoryRequirementMutation` (and its deprecated alias
    `deleteJobCategoryRequirement`, the same mutation): removes one link
    between a job category and a document requirement. */
module RemoveJobCategoryRequirement {
  import opened Wrappers
  import opened Schema
  import opened Store

  const NotFoundMessage := "Job category requirement not found"

  /** The links table without the link `id`, others in their order. */
  function Without(links: seq<JobCategoryRequirement>, id: CategoryRequirementId): (r: seq<JobCategoryRequirement>)
    requires UniqueIds(links, LinkKey)
    ensures UniqueIds(r, LinkKey)
    ensures !HasId(r, LinkKey, id)
    ensures forall l :: l in r <==> l in links && l.id != id
    ensures HasId(links, LinkKey, id) ==> |r| == |links| - 1
    ensures !HasId(links, LinkKey, id) ==> r == links
  {
    match IndexOfId(links, LinkKey, id)
    case None => links
    case Some(i) =>
      var r := links[..i] + links[i + 1..];
      assert forall k :: 0 <= k < |r| ==> r[k] == if k < i then links[k] else links[k + 1];
      r
  }

  /** A missing id is reported and the table is unchanged; otherwise exactly
      that link is removed. Returns `Ok(true)` for `{ success: true }`. Since
      the removed id is gone, a second call with it is reported as missing. */
  method DeleteJobCategoryRequirementMutation(db: Database, requirementId: CategoryRequirementId)
    returns (r: Result<bool>)
    requires db.Valid()
    modifies db`jobCategoryRequirements
    ensures db.Valid()
    ensures !HasId(old(db.jobCategoryRequirements), LinkKey, requirementId) ==>
              r == Err(NotFoundMessage) && db.jobCategoryRequirements == old(db.jobCategoryRequirements)
    ensures HasId(old(db.jobCategoryRequirements), LinkKey, requirementId) ==>
              r == Ok(true) && db.jobCategoryRequirements == Without(old(db.jobCategoryRequirements), requirementId)
    ensures !HasId(db.jobCategoryRequirements, LinkKey, requirementId)
  {
    var existing := Get(db.jobCategoryRequirements, LinkKey, requirementId);
    if existing.None? {
      return Err(NotFoundMessage);
    }
    db.jobCategoryRequirements := Without(db.jobCategoryRequirements, requirementId);
    r := Ok(true);
  }

  /** Deleting is not repeatable: the second of two calls with the same id fails. */
  method DeleteTwice(db: Database, requirementId: CategoryRequirementId) returns (first: Result<bool>, second: Result<bool>)
    requires db.Valid()
    modifies db`jobCategoryRequirements
    ensures second == Err(NotFoundMessage)
    ensures db.jobCategoryRequirements == Without(old(db.jobCategoryRequirements), requirementId)
  {
    first := DeleteJobCategoryRequirementMutation(db, requirementId);
    second := DeleteJobCategoryRequirementMutation(db, requirementId);
  }
}

=== FILE: schema.dfy ===
/** The tables of the Convex schema and their closed literal unions.
    Document ids are strings; timestamps (float64 milliseconds) are integers;
    money amounts (float64) are reals; optional fields are `Option`s. */
module Schema {
  import opened Wrappers

  type UserId = string
  type FormId = string
  type CategoryId = string
  type PaymentId = string
  type DocumentId = string
  type RequirementId = string
  type CategoryRequirementId = string
  type HealthCardId = string
  type NotificationId = string
  type StorageId = string

  /** `forms.applicationType`. */
  datatype ApplicationType = New | Renew

  /** `payments.method`. */
  datatype PaymentMethod = Gcash | Maya | BaranggayHall | CityHall

  /** `payments.status`. */
  datatype PaymentStatus = Pending | Complete | Failed | Refunded | Cancelled

  /** `users.role`. */
  datatype Role = Applicant | Inspector | Admin

  /** `orientations.status`. */
  datatype OrientationStatus = Scheduled | Completed | Missed

  /** `jobCategory.requireOrientation` is a boolean or a string. */
  datatype RequireOrientation = Flag(flag: bool) | Text(text: string)

  datatype DocumentRequirement = DocumentRequirement(
    id: RequirementId, description: string, fieldName: string, icon: string,
    name: string, required: bool)

  /** `formDocuments`; `status` is a free string, not an enumeration. */
  datatype FormDocument = FormDocument(
    id: DocumentId, documentRequirementId: RequirementId, fileId: StorageId,
    fileName: string, formId: FormId, remarks: Option<string>,
    reviewAt: Option<int>, reviewBy: Option<UserId>, status: string, uploadedAt: int)

  /** `forms`; `status` is a free string, not an enumeration. */
  datatype Form = Form(
    id: FormId, creationTime: int, applicationType: ApplicationType,
    approvedAt: Option<int>, civilStatus: string, jobCategory: CategoryId,
    organization: string, position: string, remarks: Option<string>,
    status: string, updatedAt: Option<int>, userId: UserId)

  datatype HealthCard = HealthCard(
    id: HealthCardId, cardUrl: string, expiresAt: int, formId: FormId,
    issuedAt: int, verificationToken: string)

  datatype JobCategory = JobCategory(
    id: CategoryId, colorCode: string, name: string,
    requireOrientation: Option<RequireOrientation>)

  /** A link between a job category and a document requirement. */
  datatype JobCategoryRequirement = JobCategoryRequirement(
    id: CategoryRequirementId, documentRequirementId: RequirementId,
    jobCategoryId: CategoryId, required: bool)

  datatype Notification = Notification(
    id: NotificationId, creationTime: int, actionUrl: Option<string>,
    formsId: Option<FormId>, message: string, read: bool,
    title: Option<string>, kind: string, userId: UserId)

  /** `payments`; the field `method` is named `paymentMethod` here (`method` is a keyword). */
  datatype Payment = Payment(
    id: PaymentId, creationTime: int, amount: real, formId: FormId,
    paymentMethod: PaymentMethod, netAmount: real, receiptId: Option<StorageId>,
    referenceNumber: string, serviceFee: real, status: PaymentStatus,
    updatedAt: Option<int>)

  /** `users`; `managedCategories` is an optional list of ids: no "all" sentinel is stored. */
  datatype User = User(
    id: UserId, birthDate: Option<string>, clerkId: string, email: string,
    fullname: string, gender: Option<string>, image: string,
    phoneNumber: Option<string>, role: Option<Role>,
    managedCategories: Option<seq<CategoryId>>, updatedAt: Option<int>,
    username: string)

  // Record keys, used to look records up by id.
  function UserKey(u: User): UserId { u.id }
  function FormKey(f: Form): FormId { f.id }
  function CategoryKey(c: JobCategory): CategoryId { c.id }
  function RequirementKey(r: DocumentRequirement): RequirementId { r.id }
  function PaymentKey(p: Payment): PaymentId { p.id }
  function LinkKey(l: JobCategoryRequirement): CategoryRequirementId { l.id }

  // The literal unions as the validators see them: the strings they accept.

  function ApplicationTypeName(t: ApplicationType): string {
    match t
    case New => "New"
    case Renew => "Renew"
  }

  /** The `v.union(v.literal("New"), v.literal("Renew"))` validator. */
  function ParseApplicationType(s: string): (r: Option<ApplicationType>)
    ensures forall t :: r == Some(t) <==> ApplicationTypeName(t) == s
  {
    if s == "New" then Some(New)
    else if s == "Renew" then Some(Renew)
    else None
  }

  function PaymentMethodName(m: PaymentMethod): string {
    match m
    case Gcash => "Gcash"
    case Maya => "Maya"
    case BaranggayHall => "BaranggayHall"
    case CityHall => "CityHall"
  }

  /** The validator of `payments.method`. */
  function ParsePaymentMethod(s: string): (r: Option<PaymentMethod>)
    ensures forall m :: r == Some(m) <==> PaymentMethodName(m) == s
  {
    if s == "Gcash" then Some(Gcash)
    else if s == "Maya" then Some(Maya)
    else if s == "BaranggayHall" then Some(BaranggayHall)
    else if s == "CityHall" then Some(CityHall)
    else None
  }

  function PaymentStatusName(st: PaymentStatus): string {
    match st
    case Pending => "Pending"
    case Complete => "Complete"
    case Failed => "Failed"
    case Refunded => "Refunded"
    case Cancelled => "Cancelled"
  }

  /** The validator of `payments.status`. */
  function ParsePaymentStatus(s: string): (r: Option<PaymentStatus>)
    ensures forall st :: r == Some(st) <==> PaymentStatusName(st) == s
  {
    if s == "Pending" then Some(Pending)
    else if s == "Complete" then Some(Complete)
    else if s == "Failed" then Some(Failed)
    else if s == "Refunded" then Some(Refunded)
    else if s == "Cancelled" then Some(Cancelled)
    else None
  }

  function RoleName(r: Role): string {
    match r
    case Applicant => "applicant"
    case Inspector => "inspector"
    case Admin => "admin"
  }

  /** The validator of `users.role` (when the field is present). */
  function ParseRole(s: string): (r: Option<Role>)
    ensures forall x :: r == Some(x) <==> RoleName(x) == s
  {
    if s == "applicant" then Some(Applicant)
    else if s == "inspector" then Some(Inspector)
    else if s == "admin" then Some(Admin)
    else None
  }

  function OrientationStatusName(st: OrientationStatus): string {
    match st
    case Scheduled => "Scheduled"
    case Completed => "Completed"
    case Missed => "Missed"
  }

  /** The validator of `orientations.status`. */
  function ParseOrientationStatus(s: string): (r: Option<OrientationStatus>)
    ensures forall st :: r == Some(st) <==> OrientationStatusName(st) == s
  {
    if s == "Scheduled" then Some(Scheduled)
    else if s == "Completed" then Some(Completed)
    else if s == "Missed" then Some(Missed)
    else None
  }
}

=== FILE: seqs.dfy ===
/** Order-preserving collection helpers: the array methods the handlers use
    (`filter`, `find`, `slice`) and the store's `first`/`unique` on a query. */
module Seqs {
  import opened Wrappers

  /** The elements of `s` satisfying `p`, in their original order. */
  function Filter<T(!new)>(s: seq<T>, p: T -> bool): (r: seq<T>)
    ensures |r| <= |s|
    ensures forall x :: x in r <==> x in s && p(x)
    decreases |s|
  {
    if s == [] then []
    else if p(s[0]) then [s[0]] + Filter(s[1..], p)
    else Filter(s[1..], p)
  }

  /** How many elements of `s` satisfy `p` (`s.filter(p).length`). */
  function Count<T(!new)>(s: seq<T>, p: T -> bool): (n: nat)
    ensures n <= |s|
    ensures n == 0 <==> forall x :: x in s ==> !p(x)
  {
    var r := Filter(s, p);
    assert r != [] ==> r[0] in r;
    |r|
  }

  /** The position of the first element of `s` satisfying `p`, if any. */
  function FindIndex<T>(s: seq<T>, p: T -> bool): (r: Option<nat>)
    ensures r.Some? ==> r.value < |s| && p(s[r.value]) && forall j :: 0 <= j < r.value ==> !p(s[j])
    ensures r.None? <==> forall j :: 0 <= j < |s| ==> !p(s[j])
    decreases |s|
  {
    if s == [] then None
    else if p(s[0]) then Some(0)
    else match FindIndex(s[1..], p)
      case None => None
      case Some(i) => Some(i + 1)
  }

  /** The first element of `s` satisfying `p`, if any (`Array.prototype.find`, and a query's `first()`). */
  function First<T(!new)>(s: seq<T>, p: T -> bool): (r: Option<T>)
    ensures r.None? <==> forall x :: x in s ==> !p(x)
    ensures r.Some? ==> exists i :: 0 <= i < |s| && s[i] == r.value && p(s[i]) && forall j :: 0 <= j < i ==> !p(s[j])
  {
    match FindIndex(s, p)
    case None => None
    case Some(i) => Some(s[i])
  }

  /** A query's `unique()`: no match gives `null`, one match gives it, more than one throws. */
  function Unique<T(!new)>(s: seq<T>, p: T -> bool): (r: Result<Option<T>>)
    ensures r.Err? <==> Count(s, p) > 1
    ensures r == Ok(None) <==> forall x :: x in s ==> !p(x)
    ensures r.Ok? && r.value.Some? ==> Count(s, p) == 1 && First(s, p) == r.value
  {
    var matches := Filter(s, p);
    if |matches| > 1 then Err(UniqueFailed)
    else if |matches| == 0 then Ok(None)
    else Ok(Some(matches[0]))
  }

  const UniqueFailed := "unique() query returned more than one result"

  /** `s.slice(0, n)`: the first `n` elements, or all of them. */
  function Take<T(!new)>(s: seq<T>, n: nat): (r: seq<T>)
    ensures |r| == if |s| <= n then |s| else n
    ensures |s| <= n ==> r == s
    ensures forall i :: 0 <= i < |r| ==> r[i] == s[i]
    ensures forall x :: x in r ==> x in s
  {
    if |s| <= n then s
    else
      assert forall x :: x in s[..n] ==> x in s;
      s[..n]
  }

  /** `s.slice(-n)` for `n > 0`: the last `n` elements, or all of them. */
  function TakeLast<T>(s: seq<T>, n: nat): (r: seq<T>)
    ensures |r| == if |s| <= n then |s| else n
    ensures |s| <= n ==> r == s
    ensures forall i :: 0 <= i < |r| ==> r[i] == s[|s| - |r| + i]
  {
    if |s| <= n then s else s[|s| - n..]
  }

  /** `s` in reverse order (a descending index scan). */
  function Reverse<T(!new)>(s: seq<T>): (r: seq<T>)
    ensures |r| == |s|
    ensures forall i :: 0 <= i < |s| ==> r[i] == s[|s| - 1 - i]
    ensures forall x :: x in r <==> x in s
  {
    if s == [] then [] else Reverse(s[1..]) + [s[0]]
  }

  /** Filtering twice is filtering once by the conjunction, order included. */
  lemma {:induction false} FilterTwice<T(!new)>(s: seq<T>, p: T -> bool, q: T -> bool, pq: T -> bool)
    requires forall x :: pq(x) == (p(x) && q(x))
    ensures Filter(Filter(s, p), q) == Filter(s, pq)
    decreases |s|
  {
    if s != [] {
      FilterTwice(s[1..], p, q, pq);
      if p(s[0]) {
        assert Filter(s, p) == [s[0]] + Filter(s[1..], p);
        assert ([s[0]] + Filter(s[1..], p))[1..] == Filter(s[1..], p);
      }
    }
  }

  /** Filters by predicates that agree on `s` give the same result. */
  lemma {:induction false} FilterCongruent<T(!new)>(s: seq<T>, p: T -> bool, q: T -> bool)
    requires forall x :: x in s ==> p(x) == q(x)
    ensures Filter(s, p) == Filter(s, q)
    decreases |s|
  {
    if s != [] {
      FilterCongruent(s[1..], p, q);
    }
  }

  /** A filter whose predicate holds everywhere keeps everything; one that holds nowhere keeps nothing. */
  lemma {:induction false} FilterAllOrNothing<T(!new)>(s: seq<T>, p: T -> bool)
    ensures (forall x :: x in s ==> p(x)) ==> Filter(s, p) == s
    ensures (forall x :: x in s ==> !p(x)) ==> Filter(s, p) == []
    decreases |s|
  {
    if s != [] {
      FilterAllOrNothing(s[1..], p);
      assert s == [s[0]] + s[1..];
    }
  }
  /** Filtering a concatenation filters each part. */
  lemma {:induction false} FilterConcat<T(!new)>(a: seq<T>, b: seq<T>, p: T -> bool)
    ensures Filter(a + b, p) == Filter(a, p) + Filter(b, p)
    decreases |a|
  {
    if a == [] {
      assert a + b == b;
    } else {
      FilterConcat(a[1..], b, p);
      assert (a + b)[0] == a[0];
      assert (a + b)[1..] == a[1..] + b;
    }
  }

  /** Reversing a sequence does not change how many of its elements satisfy `p`. */
  lemma {:induction false} CountReverse<T(!new)>(s: seq<T>, p: T -> bool)
    ensures Count(Reverse(s), p) == Count(s, p)
    decreases |s|
  {
    if s != [] {
      CountReverse(s[1..], p);
      FilterConcat(Reverse(s[1..]), [s[0]], p);
      assert [s[0]][1..] == [];
    }
  }
}

=== FILE: store.dfy ===
/** The mutable part of the database (`ctx.db`) that the mutations patch or
    delete from, and id lookup (`ctx.db.get`) over a table snapshot. */
module Store {
  import opened Wrappers
  import opened Schema
  import opened Seqs

  type ApplicationId = string
  type UploadId = string

  /** A record of the `applications` table that the finalize mutation patches.
      That table is not declared in the schema; the four fields finalize writes
      are explicit and every other field is kept, by name, in `otherFields`. */
  datatype Application = Application(
    id: ApplicationId, applicationStatus: Option<string>, adminRemarks: Option<string>,
    updatedAt: Option<int>, approvedAt: Option<int>, otherFields: map<string, string>)

  /** A record of the `documentUploads` table (not declared in the schema);
      finalize reads only its parent application and its `reviewStatus`. */
  datatype DocumentUpload = DocumentUpload(id: UploadId, applicationId: ApplicationId, reviewStatus: string)

  function ApplicationKey(a: Application): ApplicationId { a.id }
  function UploadKey(d: DocumentUpload): UploadId { d.id }

  /** No two records of `table` share an id. */
  predicate UniqueIds<T>(table: seq<T>, key: T -> string) {
    forall i, j :: 0 <= i < j < |table| ==> key(table[i]) != key(table[j])
  }

  /** The position of the record with id `id`, if there is one. */
  function IndexOfId<T>(table: seq<T>, key: T -> string, id: string): (r: Option<nat>)
    ensures r.Some? ==> r.value < |table| && key(table[r.value]) == id
    ensures r.None? <==> forall i :: 0 <= i < |table| ==> key(table[i]) != id
    ensures r.Some? && UniqueIds(table, key) ==> forall i :: 0 <= i < |table| && key(table[i]) == id ==> i == r.value
  {
    FindIndex(table, x => key(x) == id)
  }

  /** Whether `table` holds a record with id `id`. */
  predicate HasId<T>(table: seq<T>, key: T -> string, id: string) {
    IndexOfId(table, key, id).Some?
  }

  /** `ctx.db.get(id)`: the record with that id, or null. */
  function Get<T(!new)>(table: seq<T>, key: T -> string, id: string): (r: Option<T>)
    ensures r.Some? ==> r.value in table && key(r.value) == id
    ensures r.None? <==> forall x :: x in table ==> key(x) != id
  {
    match IndexOfId(table, key, id)
    case None => None
    case Some(i) => Some(table[i])
  }

  /** The tables the mutations change, each a snapshot in creation order. */
  class Database {
    var applications: seq<Application>
    var documentUploads: seq<DocumentUpload>
    var payments: seq<Payment>
    var jobCategoryRequirements: seq<JobCategoryRequirement>

    /** Document ids are unique within each table. */
    ghost predicate Valid()
      reads this
    {
      UniqueIds(applications, ApplicationKey) && UniqueIds(documentUploads, UploadKey) &&
      UniqueIds(payments, PaymentKey) && UniqueIds(jobCategoryRequirements, LinkKey)
    }

    constructor (applications: seq<Application>, documentUploads: seq<DocumentUpload>,
                 payments: seq<Payment>, jobCategoryRequirements: seq<JobCategoryRequirement>)
      requires UniqueIds(applications, ApplicationKey) && UniqueIds(documentUploads, UploadKey)
      requires UniqueIds(payments, PaymentKey) && UniqueIds(jobCategoryRequirements, LinkKey)
      ensures Valid()
      ensures this.applications == applications && this.documentUploads == documentUploads
      ensures this.payments == payments && this.jobCategoryRequirements == jobCategoryRequirements
    {
      this.applications := applications;
      this.documentUploads := documentUploads;
      this.payments := payments;
      this.jobCategoryRequirements := jobCategoryRequirements;
    }
  }

  /** The message the store throws when a patch names a missing document. */
  const PatchMissing := "Update on nonexistent document ID"
}

=== FILE: time_ago.dfy ===
/** The two `timeAgo` helpers of the activity logs: elapsed time rendered in
    the largest unit it exceeds. The clock reading is a parameter. */
module TimeAgo {

  datatype Unit = Seconds | Minutes | Hours | Days | Months | Years

  /** An elapsed time as shown: "<count> <unit> ago". */
  datatype Ago = Ago(count: int, unit: Unit)

  /** Seconds per unit; a month is 30 days and a year 365 days. */
  function UnitLength(u: Unit): nat {
    match u
    case Seconds => 1
    case Minutes => 60
    case Hours => 3600
    case Days => 86400
    case Months => 2592000
    case Years => 31536000
  }

  function Rank(u: Unit): nat {
    match u
    case Seconds => 0
    case Minutes => 1
    case Hours => 2
    case Days => 3
    case Months => 4
    case Years => 5
  }

  /** `Math.floor((now.getTime() - date.getTime()) / 1000)` on millisecond timestamps. */
  function ElapsedSeconds(nowMs: int, thenMs: int): (s: int)
    ensures s * 1000 <= nowMs - thenMs < s * 1000 + 1000
  {
    ((nowMs - thenMs) as real / 1000.0).Floor
  }

  /** `seconds / length` as tested `> 1` and floored; an exact quotient, where JavaScript rounds to a double. */
  function Interval(seconds: int, u: Unit): real {
    seconds as real / UnitLength(u) as real
  }

  /** `timeAgo` of DashboardActivityLog.tsx, given the elapsed seconds. */
  function DashboardTimeAgo(seconds: int): Ago {
    if Interval(seconds, Years) > 1.0 then Ago(Interval(seconds, Years).Floor, Years)
    else if Interval(seconds, Months) > 1.0 then Ago(Interval(seconds, Months).Floor, Months)
    else if Interval(seconds, Days) > 1.0 then Ago(Interval(seconds, Days).Floor, Days)
    else if Interval(seconds, Hours) > 1.0 then Ago(Interval(seconds, Hours).Floor, Hours)
    else if Interval(seconds, Minutes) > 1.0 then Ago(Interval(seconds, Minutes).Floor, Minutes)
    else Ago(seconds, Seconds)
  }

  /** `timeAgo` of ApplicantActivityLog.tsx: hours, minutes and seconds only. */
  function ApplicantTimeAgo(seconds: int): Ago {
    if Interval(seconds, Hours) > 1.0 then Ago(Interval(seconds, Hours).Floor, Hours)
    else if Interval(seconds, Minutes) > 1.0 then Ago(Interval(seconds, Minutes).Floor, Minutes)
    else Ago(seconds, Seconds)
  }

  /** The real-valued test and floor agree with integer comparison and division. */
  lemma IntervalIsIntegerDivision(seconds: int, u: Unit)
    ensures Interval(seconds, u) > 1.0 <==> seconds > UnitLength(u)
    ensures Interval(seconds, u).Floor == seconds / UnitLength(u)
  {
    match u
    case Seconds =>
    case Minutes => FloorByMinute(seconds);
    case Hours => FloorByHour(seconds);
    case Days => FloorByDay(seconds);
    case Months => FloorByMonth(seconds);
    case Years => FloorByYear(seconds);
  }

  lemma FloorByMinute(seconds: int)
    ensures Interval(seconds, Minutes) > 1.0 <==> seconds > 60
    ensures Interval(seconds, Minutes).Floor == seconds / 60
  {
    var q := seconds / 60;
    assert (q as real) * 60.0 <= seconds as real < (q as real) * 60.0 + 60.0;
  }

  lemma FloorByHour(seconds: int)
    ensures Interval(seconds, Hours) > 1.0 <==> seconds > 3600
    ensures Interval(seconds, Hours).Floor == seconds / 3600
  {
    var q := seconds / 3600;
    assert (q as real) * 3600.0 <= seconds as real < (q as real) * 3600.0 + 3600.0;
  }

  lemma FloorByDay(seconds: int)
    ensures Interval(seconds, Days) > 1.0 <==> seconds > 86400
    ensures Interval(seconds, Days).Floor == seconds / 86400
  {
    var q := seconds / 86400;
    assert (q as real) * 86400.0 <= seconds as real < (q as real) * 86400.0 + 86400.0;
  }

  lemma FloorByMonth(seconds: int)
    ensures Interval(seconds, Months) > 1.0 <==> seconds > 2592000
    ensures Interval(seconds, Months).Floor == seconds / 2592000
  {
    var q := seconds / 2592000;
    assert (q as real) * 2592000.0 <= seconds as real < (q as real) * 2592000.0 + 2592000.0;
  }

  lemma FloorByYear(seconds: int)
    ensures Interval(seconds, Years) > 1.0 <==> seconds > 31536000
    ensures Interval(seconds, Years).Floor == seconds / 31536000
  {
    var q := seconds / 31536000;
    assert (q as real) * 31536000.0 <= seconds as real < (q as real) * 31536000.0 + 31536000.0;
  }

  /** A shown time in integer terms: the unit is the largest whose length the
      elapsed time strictly exceeds (seconds otherwise), among `units`, and the
      count is the elapsed time divided by that length, rounded down. */
  predicate Describes(a: Ago, seconds: int, units: set<Unit>) {
    a.unit in units + {Seconds} &&
    a.count == seconds / UnitLength(a.unit) &&
    (a.unit != Seconds ==> seconds > UnitLength(a.unit)) &&
    (forall u :: u in units && Rank(u) > Rank(a.unit) ==> seconds <= UnitLength(u))
  }

  lemma {:induction false} DashboardTimeAgoSpec(seconds: int)
    ensures Describes(DashboardTimeAgo(seconds), seconds, {Minutes, Hours, Days, Months, Years})
  {
    IntervalIsIntegerDivision(seconds, Years);
    IntervalIsIntegerDivision(seconds, Months);
    IntervalIsIntegerDivision(seconds, Days);
    IntervalIsIntegerDivision(seconds, Hours);
    IntervalIsIntegerDivision(seconds, Minutes);
  }

  lemma {:induction false} ApplicantTimeAgoSpec(seconds: int)
    ensures Describes(ApplicantTimeAgo(seconds), seconds, {Minutes, Hours})
  {
    IntervalIsIntegerDivision(seconds, Hours);
    IntervalIsIntegerDivision(seconds, Minutes);
  }

  /** Outside the seconds branch the count is at least one; the seconds
      branch shows the elapsed seconds as they are, negative ones included. */
  lemma CountsArePositive(seconds: int)
    ensures DashboardTimeAgo(seconds).unit != Seconds ==> DashboardTimeAgo(seconds).count >= 1
    ensures ApplicantTimeAgo(seconds).unit != Seconds ==> ApplicantTimeAgo(seconds).count >= 1
    ensures DashboardTimeAgo(seconds).unit == Seconds <==> seconds <= 60
    ensures ApplicantTimeAgo(seconds).unit == Seconds <==> seconds <= 60
    ensures seconds <= 60 ==> DashboardTimeAgo(seconds).count == seconds && ApplicantTimeAgo(seconds).count == seconds
  {
    DashboardTimeAgoSpec(seconds);
    ApplicantTimeAgoSpec(seconds);
    var d := DashboardTimeAgo(seconds);
    var a := ApplicantTimeAgo(seconds);
    if d.unit != Seconds { DivAtLeastOne(seconds, UnitLength(d.unit)); }
    if a.unit != Seconds { DivAtLeastOne(seconds, UnitLength(a.unit)); }
  }

  lemma DivAtLeastOne(n: int, d: nat)
    requires 0 < d < n
    ensures n / d >= 1
  {
  }

  /** The thresholds are strict: a whole day still reads in hours, a whole
      year in months; the applicant log has no day unit. */
  lemma StrictThresholds()
    ensures DashboardTimeAgo(86400) == Ago(24, Hours)
    ensures DashboardTimeAgo(31536000) == Ago(12, Months)
    ensures ApplicantTimeAgo(3600) == Ago(60, Minutes)
    ensures ApplicantTimeAgo(172800) == Ago(48, Hours)
  {
    DashboardTimeAgoSpec(86400);
    DashboardTimeAgoSpec(31536000);
    ApplicantTimeAgoSpec(3600);
    ApplicantTimeAgoSpec(172800);
  }

  /** A longer elapsed time never shows in a smaller unit. */
  lemma DashboardUnitMonotone(s1: int, s2: int)
    requires s1 <= s2
    ensures Rank(DashboardTimeAgo(s1).unit) <= Rank(DashboardTimeAgo(s2).unit)
  {
    DashboardTimeAgoSpec(s1);
    DashboardTimeAgoSpec(s2);
  }

  /** Up to one day the two helpers show the same thing. */
  lemma LogsAgreeWithinADay(seconds: int)
    requires seconds <= 86400
    ensures ApplicantTimeAgo(seconds) == DashboardTimeAgo(seconds)
  {
    DashboardTimeAgoSpec(seconds);
    ApplicantTimeAgoSpec(seconds);
  }
}

=== FILE: update_payment_status.dfy ===
/** `updatePaymentStatusMutation` (and its deprecated alias
    `updatePaymentStatus`, the same mutation): a status patch with an
    existence check and no role check. */
module UpdatePaymentStatus {
  import opened Wrappers
  import opened Schema
  import opened Store
  import Payments

  /** The `status` argument: `Pending`, `Complete` or `Failed` only. */
  type SettableStatus = s: PaymentStatus | s == Pending || s == Complete || s == Failed witness Pending

  const NotFoundMessage := "Payment not found"

  /** A missing payment is reported and nothing changes; otherwise only the
      payment's `status` changes. The caller's identity is not an input: the
      outcome does not depend on who calls. Returns the id it was given. */
  method UpdatePaymentStatusMutation(db: Database, paymentId: PaymentId, status: SettableStatus)
    returns (r: Result<PaymentId>)
    requires db.Valid()
    modifies db`payments
    ensures db.Valid()
    ensures !HasId(old(db.payments), PaymentKey, paymentId) ==>
              r == Err(NotFoundMessage) && db.payments == old(db.payments)
    ensures HasId(old(db.payments), PaymentKey, paymentId) ==>
              r == Ok(paymentId) && db.payments == Payments.WithStatus(old(db.payments), paymentId, status)
  {
    var payment := Get(db.payments, PaymentKey, paymentId);
    if payment.None? {
      return Err(NotFoundMessage);
    }
    db.payments := Payments.WithStatus(db.payments, paymentId, status);
    r := Ok(paymentId);
  }
}

=== FILE: user_applications.dfy ===
/** `getUserApplicationsQuery`: the caller's applications, one compact row per form. */
module UserApplications {
  import opened Wrappers
  import opened Schema
  import opened Store
  import opened CurrentUser
  import opened Documents

  datatype FormSummary = FormSummary(
    id: FormId, applicationType: ApplicationType, position: string, organization: string, civilStatus: string)

  datatype CategorySummary = CategorySummary(
    id: CategoryId, name: string, colorCode: string, requireOrientation: Option<RequireOrientation>)

  datatype UserApplication = UserApplication(
    id: FormId, creationTime: int, status: string, form: FormSummary,
    jobCategory: Option<CategorySummary>, documentCount: nat, submittedAt: Option<int>)

  /** `form.status === "Submitted" ? (form.updatedAt || form._creationTime) : undefined`:
      a missing or zero `updatedAt` falls back to the creation time. */
  function SubmittedAt(f: Form): (r: Option<int>)
    ensures r.Some? <==> f.status == "Submitted"
    ensures r.Some? && f.updatedAt.Some? && f.updatedAt.value != 0 ==> r.value == f.updatedAt.value
    ensures r.Some? && (f.updatedAt.None? || f.updatedAt.value == 0) ==> r.value == f.creationTime
  {
    if f.status != "Submitted" then None
    else match f.updatedAt
      case Some(u) => if u != 0 then Some(u) else Some(f.creationTime)
      case None => Some(f.creationTime)
  }

  /** The category's four fields, or undefined when the category record is missing. */
  function CategoryOf(categories: seq<JobCategory>, id: CategoryId): (r: Option<CategorySummary>)
    ensures r.None? <==> Get(categories, CategoryKey, id).None?
    ensures r.Some? ==> var c := Get(categories, CategoryKey, id).value;
                        r.value == CategorySummary(c.id, c.name, c.colorCode, c.requireOrientation)
  {
    match Get(categories, CategoryKey, id)
    case None => None
    case Some(c) => Some(CategorySummary(c.id, c.name, c.colorCode, c.requireOrientation))
  }

  /** One row of the result (lines 23-54). */
  function Row(form: Form, categories: seq<JobCategory>, documents: seq<FormDocument>): (r: UserApplication)
    ensures r.id == form.id && r.form.id == form.id && r.status == form.status
    ensures r.documentCount == |DocumentsOfForm(documents, form.id)|
    ensures r.jobCategory == CategoryOf(categories, form.jobCategory) && r.submittedAt == SubmittedAt(form)
  {
    UserApplication(
      form.id, form.creationTime, form.status,
      FormSummary(form.id, form.applicationType, form.position, form.organization, form.civilStatus),
      CategoryOf(categories, form.jobCategory),
      |DocumentsOfForm(documents, form.id)|,
      SubmittedAt(form))
  }

  /** The query: `[]` without identity or user, else one row per owned form in index order. */
  function GetUserApplicationsQuery(identity: Option<string>, users: seq<User>, forms: seq<Form>,
                                    categories: seq<JobCategory>, documents: seq<FormDocument>)
    : (r: Result<seq<UserApplication>>)
    ensures Lookup(users, identity) == Ok(None) ==> r == Ok([])
    ensures r.Err? <==> Lookup(users, identity).Err?
    ensures Lookup(users, identity).Ok? && Lookup(users, identity).value.Some? ==>
              var owned := FormsOfUser(forms, Lookup(users, identity).value.value.id);
              r.Ok? && |r.value| == |owned| &&
              forall i :: 0 <= i < |owned| ==> r.value[i] == Row(owned[i], categories, documents)
  {
    match Lookup(users, identity)
    case Err(msg) => Err(msg)
    case Ok(None) => Ok([])
    case Ok(Some(user)) =>
      var owned := FormsOfUser(forms, user.id);
      Ok(seq(|owned|, i requires 0 <= i < |owned| => Row(owned[i], categories, documents)))
  }

  /** Every row belongs to a form of the caller, counts that form's documents,
      and has a submission time exactly when its status is "Submitted". */
  lemma RowsDescribeOwnedForms(identity: Option<string>, users: seq<User>, forms: seq<Form>,
                               categories: seq<JobCategory>, documents: seq<FormDocument>)
    requires GetUserApplicationsQuery(identity, users, forms, categories, documents).Ok?
    ensures var rows := GetUserApplicationsQuery(identity, users, forms, categories, documents).value;
            forall row :: row in rows ==>
              (exists f :: f in forms && f.id == row.id && f.status == row.status) &&
              row.documentCount == |DocumentsOfForm(documents, row.id)| &&
              (row.submittedAt.Some? <==> row.status == "Submitted")
  {
    var rows := GetUserApplicationsQuery(identity, users, forms, categories, documents).value;
    match Lookup(users, identity)
    case Ok(None) =>
    case Ok(Some(user)) =>
      var owned := FormsOfUser(forms, user.id);
      forall row | row in rows
        ensures (exists f :: f in forms && f.id == row.id && f.status == row.status) &&
                row.documentCount == |DocumentsOfForm(documents, row.id)| &&
                (row.submittedAt.Some? <==> row.status == "Submitted")
      {
        var i :| 0 <= i < |rows| && rows[i] == row;
        assert owned[i] in owned;
      }
  }
}

=== FILE: user_payments.dfy ===
/** `getUserPaymentsQuery` (and its deprecated alias `getUserPayments`, the
    same query): the caller's payments, one per form that has a payment, each with a
    summary of its form and category. */
module UserPayments {
  import opened Wrappers
  import opened Schema
  import opened Store
  import opened CurrentUser
  import GetPaymentByFormId

  datatype PaymentForm = PaymentForm(id: FormId, applicationType: ApplicationType, position: string, organization: string)

  datatype CategoryBrief = CategoryBrief(id: CategoryId, name: string, colorCode: string)

  datatype UserPayment = UserPayment(
    id: PaymentId, creationTime: int, amount: real, serviceFee: real, netAmount: real,
    paymentMethod: PaymentMethod, referenceNumber: string, status: PaymentStatus,
    updatedAt: Option<int>, form: PaymentForm, jobCategory: Option<CategoryBrief>)

  /** The row for `payment` of `form` (lines 34-59); the category is undefined when its record is missing. */
  function Row(payment: Payment, form: Form, categories: seq<JobCategory>): (r: UserPayment)
    ensures r.id == payment.id && r.form.id == form.id
    ensures r.jobCategory.None? <==> Get(categories, CategoryKey, form.jobCategory).None?
  {
    UserPayment(
      payment.id, payment.creationTime, payment.amount, payment.serviceFee, payment.netAmount,
      payment.paymentMethod, payment.referenceNumber, payment.status, payment.updatedAt,
      PaymentForm(form.id, form.applicationType, form.position, form.organization),
      match Get(categories, CategoryKey, form.jobCategory)
      case None => None
      case Some(c) => Some(CategoryBrief(c.id, c.name, c.colorCode)))
  }

  /** `row` is the row of `form`'s unique payment. */
  predicate RowOfForm(row: UserPayment, form: Form, payments: seq<Payment>, categories: seq<JobCategory>) {
    var p := GetPaymentByFormId.GetPaymentByFormIdQuery(payments, form.id);
    p.Ok? && p.value.Some? && row == Row(p.value.value, form, categories)
  }

  /** Lines 25-63: per form, its unique payment's row; forms without a payment
      contribute nothing, and a form with two payments makes the query fail. */
  function Rows(forms: seq<Form>, payments: seq<Payment>, categories: seq<JobCategory>): (r: Result<seq<UserPayment>>)
    ensures r.Err? <==> exists f :: f in forms && GetPaymentByFormId.GetPaymentByFormIdQuery(payments, f.id).Err?
    ensures r.Ok? ==> |r.value| <= |forms|
    decreases |forms|
  {
    if forms == [] then Ok([])
    else
      var form := forms[0];
      assert forall f :: f in forms <==> f == form || f in forms[1..];
      match GetPaymentByFormId.GetPaymentByFormIdQuery(payments, form.id)
      case Err(msg) => Err(msg)
      case Ok(None) => Rows(forms[1..], payments, categories)
      case Ok(Some(payment)) =>
        match Rows(forms[1..], payments, categories)
        case Err(msg) => Err(msg)
        case Ok(rest) => Ok([Row(payment, form, categories)] + rest)
  }

  /** Every row is the row of some form's unique payment. */
  lemma {:induction false} RowsComeFromForms(forms: seq<Form>, payments: seq<Payment>, categories: seq<JobCategory>)
    requires Rows(forms, payments, categories).Ok?
    ensures forall row :: row in Rows(forms, payments, categories).value ==>
              exists f :: f in forms && RowOfForm(row, f, payments, categories)
    decreases |forms|
  {
    if forms != [] {
      var form := forms[0];
      var tail := forms[1..];
      var q := GetPaymentByFormId.GetPaymentByFormIdQuery(payments, form.id);
      var rest := Rows(tail, payments, categories);
      assert q.Ok? && rest.Ok?;
      RowsComeFromForms(tail, payments, categories);
      var rows := Rows(forms, payments, categories).value;
      forall row | row in rows
        ensures exists f :: f in forms && RowOfForm(row, f, payments, categories)
      {
        if q.value.Some? && row == Row(q.value.value, form, categories) {
          assert form in forms && RowOfForm(row, form, payments, categories);
        } else {
          assert row in rest.value;
          var f :| f in tail && RowOfForm(row, f, payments, categories);
          assert f in forms;
        }
      }
    }
  }

  /** Whether `form` has exactly one stored payment. */
  predicate HasPayment(payments: seq<Payment>, form: Form) {
    var q := GetPaymentByFormId.GetPaymentByFormIdQuery(payments, form.id);
    q.Ok? && q.value.Some?
  }

  /** `rows` are the rows of the forms `paid`, one each, in the same order. */
  predicate RowsOf(rows: seq<UserPayment>, paid: seq<Form>, payments: seq<Payment>, categories: seq<JobCategory>) {
    |rows| == |paid| &&
    forall i :: 0 <= i < |rows| ==>
      HasPayment(payments, paid[i]) &&
      rows[i] == Row(GetPaymentByFormId.GetPaymentByFormIdQuery(payments, paid[i].id).value.value, paid[i], categories)
  }

  /** One step of `Rows`: the first form's row, if it has a payment, then the rest. */
  lemma RowsCons(forms: seq<Form>, payments: seq<Payment>, categories: seq<JobCategory>)
    requires forms != [] && Rows(forms, payments, categories).Ok?
    ensures Rows(forms[1..], payments, categories).Ok?
    ensures HasPayment(payments, forms[0]) ==>
              Rows(forms, payments, categories).value ==
              [Row(GetPaymentByFormId.GetPaymentByFormIdQuery(payments, forms[0].id).value.value, forms[0], categories)] +
              Rows(forms[1..], payments, categories).value
    ensures !HasPayment(payments, forms[0]) ==>
              Rows(forms, payments, categories).value == Rows(forms[1..], payments, categories).value
  {
  }

  /** Prepending a paid form's row to the rows of a list keeps them matched. */
  lemma RowsOfCons(row: UserPayment, form: Form, rows: seq<UserPayment>, paid: seq<Form>,
                   payments: seq<Payment>, categories: seq<JobCategory>)
    requires HasPayment(payments, form)
    requires row == Row(GetPaymentByFormId.GetPaymentByFormIdQuery(payments, form.id).value.value, form, categories)
    requires RowsOf(rows, paid, payments, categories)
    ensures RowsOf([row] + rows, [form] + paid, payments, categories)
  {
    var r2 := [row] + rows;
    var p2 := [form] + paid;
    forall i | 0 <= i < |r2|
      ensures HasPayment(payments, p2[i]) &&
              r2[i] == Row(GetPaymentByFormId.GetPaymentByFormIdQuery(payments, p2[i].id).value.value, p2[i], categories)
    {
      if i > 0 {
        assert r2[i] == rows[i - 1] && p2[i] == paid[i - 1];
      }
    }
  }

  /** The rows are exactly those of the forms that have a payment, one each,
      in form order: no such form is skipped and no other form contributes. */
  lemma {:induction false} RowsFollowFormOrder(forms: seq<Form>, payments: seq<Payment>, categories: seq<JobCategory>)
    requires Rows(forms, payments, categories).Ok?
    ensures RowsOf(Rows(forms, payments, categories).value,
                   Seqs.Filter(forms, (f: Form) => HasPayment(payments, f)), payments, categories)
    decreases |forms|
  {
    if forms != [] {
      RowsCons(forms, payments, categories);
      RowsFollowFormOrder(forms[1..], payments, categories);
      var paidRest := Seqs.Filter(forms[1..], (f: Form) => HasPayment(payments, f));
      if HasPayment(payments, forms[0]) {
        var row := Row(GetPaymentByFormId.GetPaymentByFormIdQuery(payments, forms[0].id).value.value, forms[0], categories);
        RowsOfCons(row, forms[0], Rows(forms[1..], payments, categories).value, paidRest, payments, categories);
      }
    }
  }

  /** The query: `[]` without identity, user or forms; otherwise the rows of the user's forms. */
  function GetUserPaymentsQuery(identity: Option<string>, users: seq<User>, forms: seq<Form>,
                                payments: seq<Payment>, categories: seq<JobCategory>): (r: Result<seq<UserPayment>>)
    ensures Lookup(users, identity) == Ok(None) ==> r == Ok([])
    ensures Lookup(users, identity).Err? ==> r.Err?
    ensures Lookup(users, identity).Ok? && Lookup(users, identity).value.Some? ==>
              var owned := FormsOfUser(forms, Lookup(users, identity).value.value.id);
              (owned == [] ==> r == Ok([])) &&
              (r.Err? <==> exists f :: f in owned && GetPaymentByFormId.GetPaymentByFormIdQuery(payments, f.id).Err?) &&
              (r.Ok? ==> |r.value| <= |owned| &&
                         forall row :: row in r.value ==> exists f :: f in owned && RowOfForm(row, f, payments, categories))
  {
    match Lookup(users, identity)
    case Err(msg) => Err(msg)
    case Ok(None) => Ok([])
    case Ok(Some(user)) =>
      var owned := FormsOfUser(forms, user.id);
      if |owned| == 0 then Ok([])
      else
        var r := Rows(owned, payments, categories);
        if r.Ok? then RowsComeFromForms(owned, payments, categories); r else r
  }

  /** `row` carries `p`'s own fields unchanged. */
  predicate Copies(row: UserPayment, p: Payment) {
    row.id == p.id && row.creationTime == p.creationTime && row.amount == p.amount &&
    row.serviceFee == p.serviceFee && row.netAmount == p.netAmount &&
    row.paymentMethod == p.paymentMethod && row.referenceNumber == p.referenceNumber &&
    row.status == p.status && row.updatedAt == p.updatedAt
  }

  /** Every returned payment is a stored payment of one of the caller's forms. */
  lemma RowsArePaymentsOfOwnedForms(identity: Option<string>, users: seq<User>, forms: seq<Form>,
                                    payments: seq<Payment>, categories: seq<JobCategory>)
    requires Lookup(users, identity).Ok? && Lookup(users, identity).value.Some?
    requires GetUserPaymentsQuery(identity, users, forms, payments, categories).Ok?
    ensures var user := Lookup(users, identity).value.value;
            forall row :: row in GetUserPaymentsQuery(identity, users, forms, payments, categories).value ==>
              exists p :: p in payments && Copies(row, p) &&
                          (exists f :: f in forms && f.userId == user.id && p.formId == f.id && row.form.id == f.id)
  {
    var user := Lookup(users, identity).value.value;
    var owned := FormsOfUser(forms, user.id);
    var rows := GetUserPaymentsQuery(identity, users, forms, payments, categories).value;
    forall row | row in rows
      ensures exists p :: p in payments && Copies(row, p) &&
                          (exists f :: f in forms && f.userId == user.id && p.formId == f.id && row.form.id == f.id)
    {
      var f :| f in owned && RowOfForm(row, f, payments, categories);
      var p := GetPaymentByFormId.GetPaymentByFormIdQuery(payments, f.id).value.value;
      assert p in payments && p.formId == f.id;
    }
  }
  /** Every form of the caller that has exactly one stored payment has its row
      in the result. */
  lemma EveryPaidFormHasRow(identity: Option<string>, users: seq<User>, forms: seq<Form>,
                            payments: seq<Payment>, categories: seq<JobCategory>, f: Form, p: Payment)
    requires Lookup(users, identity).Ok? && Lookup(users, identity).value.Some?
    requires GetUserPaymentsQuery(identity, users, forms, payments, categories).Ok?
    requires f in forms && f.userId == Lookup(users, identity).value.value.id
    requires GetPaymentByFormId.GetPaymentByFormIdQuery(payments, f.id) == Ok(Some(p))
    ensures Row(p, f, categories) in GetUserPaymentsQuery(identity, users, forms, payments, categories).value
  {
    var owned := FormsOfUser(forms, Lookup(users, identity).value.value.id);
    assert f in owned;
    RowsFollowFormOrder(owned, payments, categories);
    var paid := Seqs.Filter(owned, (g: Form) => HasPayment(payments, g));
    assert f in paid;
    var i :| 0 <= i < |paid| && paid[i] == f;
    assert Rows(owned, payments, categories).value[i] == Row(p, f, categories);
  }
}

=== FILE: wrappers.dfy ===
/** Optional values and failure-carrying results shared by every module. */
module Wrappers {

  /** A possibly missing value: TypeScript's `T | undefined` or `T | null`. */
  datatype Option<+T> = None | Some(value: T)

  /** The outcome of a handler: a value, or a thrown `Error` with its message. */
  datatype Result<+T> = Ok(value: T) | Err(msg: string)
}
